=== FILE: README.md ===
# Lucide Memory — a Dafny model of the game core

This project models the core of a single-player memory card game. Each level
deals a shuffled grid of face-down cards in pairs. The player turns two cards
at a time. A matching pair stays face up and scores points. A mismatched pair
turns back after a delay. Finishing a level updates the player's saved
progress.

The model covers:

- the level catalogue and its two lookups (`Levels`);
- dealing a deck: build the pairs, Fisher–Yates shuffle, renumber (`Deck`);
- the game reducer: start, card click with scoring, delayed flip-back,
  pause, resume, timer tick and the progress commit (`GameLogic`);
- the invariants the reducer keeps, and the counting argument behind
  "completed exactly when every card is matched" (`GameInvariants`);
- the sound manager's settings state: mute flag, master volume, per-clip
  volumes, play/stop/pause/resume gating and the stored settings record
  (`SoundManager`);
- the three clock formats the screens print, with parsers that read them
  back (`Clock`);
- the small pure parts of the card, header, game screen and dashboard
  (`Views`);
- the application shell's view and modal state machine (`App`).

Everything is a pure function over immutable datatypes. The model replaces
React state updates, timers and effects with explicit operations, and the
environment decides when to call them.

- `Math.random` becomes a `draws` parameter. `draws[i]` is the index that
  step `i` of the shuffle picks, and it must satisfy `draws[i] <= i`.
- The one-second timer becomes `Tick`.
- The one-second mismatch timeout becomes `FlipBack`, fired in the shell
  by the event `MismatchTimeout` at any later point the environment picks.
- Local storage becomes a map.
- A Howler clip becomes a volume and a playing flag.
- A read of `cards[i]` past the end of the deck throws in the source. In the
  model it is the result `Err(CardUndefined(i))`.

## Model

| member | source | states |
|---|---|---|
| Levels.CatalogueWellShaped | src/hooks/useGameLogic.ts:7-12 | There are four catalogue rows, row k is level k+1, and in every row rows × columns equals twice the pair count, with one icon per pair. |
| Levels.GetLevelConfig | src/hooks/useGameLogic.ts:196-198 | The screen's lookup returns the row for a level in 1..4 and the last row (level 4) for any other number. |
| Levels.DeckConfig | src/hooks/useGameLogic.ts:39 | The deck builder's lookup returns the row for a level in 1..4 and the first row (level 1) for any other number. |
| Levels.LookupsAgreeExactlyInCatalogue | src/hooks/useGameLogic.ts:39 | Inside the catalogue the two lookups agree. Outside it the deck is sized by level 1 and laid out by level 4. |
| Levels.DeckFillsGrid | src/App.tsx:78-100 | The deck dealt for any level number fills whole rows of the grid the screen lays it out on. Outside the catalogue that is 12 cards on 6 columns. |
| Deck.FreshPairs | src/hooks/useGameLogic.ts:42-49 | The unshuffled list has card k with id k and pair k/2, carrying that pair's icon (cycling through the icon list), face down and unmatched. |
| Deck.FreshPairCounts | src/hooks/useGameLogic.ts:42-49 | In the unshuffled list every pair id 0..n-1 occurs exactly twice and no other pair id occurs. |
| Deck.Shuffle | src/hooks/useGameLogic.ts:51-55 | The Fisher–Yates loop, driven by the draws, returns a permutation (multiset-equal) of its input. |
| Deck.ShufflePairIds | src/hooks/useGameLogic.ts:51-55 | Shuffling keeps the multiset of pair ids. |
| Deck.Renumber | src/hooks/useGameLogic.ts:57-60 | After renumbering, card i is the shuffled card i with id i, and the pair ids are unchanged. |
| Deck.InitializeCards | src/hooks/useGameLogic.ts:38-63 | The dealt deck has 2 × pairCount cards. Ids equal positions. All cards are face down and unmatched. Each pair id in range occurs exactly twice and carries its pair's icon. Unknown levels use level 1's row. |
| Deck.PermutedPairIds | src/hooks/useGameLogic.ts:51-55 | Any rearrangement of a list of cards rearranges their pair ids the same way: equal card multisets give equal pair-id multisets. |
| Deck.RenumberedPermutationIsFresh | src/hooks/useGameLogic.ts:51-62 | Any renumbered permutation (multiset-equal rearrangement) of the pair list is such a fresh deck. |
| GameLogic.StartGame | src/hooks/useGameLogic.ts:66-78 | A started game is `playing` at the level number as given (not clamped), with zero score, moves and time, empty selection and matched list, and a fresh deck. |
| GameLogic.FlipUp | src/hooks/useGameLogic.ts:91-93 | Exactly the cards whose id equals the clicked id turn face up. Nothing else changes, including the pair ids. |
| GameLogic.MarkMatched | src/hooks/useGameLogic.ts:106-109 | Exactly the cards whose id is one of the pair become matched. Pair ids are unchanged. |
| GameLogic.FlipDown | src/hooks/useGameLogic.ts:141-144 | Exactly the cards whose id is one of the pair turn face down. Pair ids are unchanged. |
| GameLogic.MatchScore | src/hooks/useGameLogic.ts:112-116 | A match scores between 100 × level and 250 × level points for a level ≥ 1, and nothing positive for a level ≤ 0. |
| GameLogic.Click | src/hooks/useGameLogic.ts:81-165 | Outside `playing` the state is returned unchanged. An index outside the deck throws. A flipped or matched card, or a full selection, is ignored. An accepted click adds one move, keeps level, time and pair ids, and either empties the selection or appends the card. A first card never throws. |
| GameLogic.FlipBack | src/hooks/useGameLogic.ts:138-147 | As written: the timeout turns down the two ids and empties the selection of whatever state is current. Nothing else changes. |
| GameLogic.GuardedFlipBack | src/hooks/useGameLogic.ts:138-147 | Corrected: the flip-back acts only while the selection is still exactly the mismatched pair, and is a no-op otherwise. |
| GameLogic.Pause | src/hooks/useGameLogic.ts:168-170 | Pausing sets `paused` from any status and changes nothing else. |
| GameLogic.Resume | src/hooks/useGameLogic.ts:172-174 | Resuming sets `playing` from any status and changes nothing else. |
| GameLogic.Tick | src/hooks/useGameLogic.ts:201-215 | A tick adds one second while playing and does nothing in any other status. Nothing else changes. |
| GameLogic.RoundDiv | src/hooks/useGameLogic.ts:188 | `Math.round(a / b)` is the nearest integer to a/b, with halves rounded up. |
| GameLogic.CompleteGame | src/hooks/useGameLogic.ts:177-193 | Outside `completed` the progress is unchanged. Otherwise it marks the player as having played and counts one more game. Best score and highest level become the larger of old and new. The average time is the session time on the first game, and otherwise the nearest integer to the running mean. |
| GameInvariants.FullIffAllMatched | src/hooks/useGameLogic.ts:118 | With pairs of two and a duplicate-free matched list, the matched list has at most half as many entries as cards. It has exactly half precisely when every card is matched. |
| GameInvariants.InitialStateInv | src/hooks/useGameLogic.ts:25-34 | The idle start state satisfies the invariant. |
| GameInvariants.StartGameInv | src/hooks/useGameLogic.ts:66-78 | A started game satisfies the invariant: ids are positions, pairs come in twos, the selection is well formed, matched cards and the matched list agree, and a card is face up exactly when it is matched or selected. |
| GameInvariants.ClickThrowsOnlyOutsideDeck | src/hooks/useGameLogic.ts:83-100 | Under the invariant, a click throws exactly when the game is playing and the index lies outside the deck. |
| GameInvariants.ClickFirstCard | src/hooks/useGameLogic.ts:90-94 | An accepted first card turns face up, becomes the whole selection and adds one move. |
| GameInvariants.ClickMatch | src/hooks/useGameLogic.ts:102-133 | A matching second card marks both cards matched, empties the selection, appends the pair id and adds the match score, which is positive from level 1 on. The game ends `completed` exactly when every card is matched, and stays `playing` otherwise. |
| GameInvariants.ClickMismatch | src/hooks/useGameLogic.ts:134-155 | A mismatching second card leaves both cards face up as the selection, adds one move, and keeps score, matched list and status. |
| GameInvariants.ClickPreservesCore | src/hooks/useGameLogic.ts:81-165 | Every click that does not throw keeps the structural part of the invariant. |
| GameInvariants.MatchKeepsCore | src/hooks/useGameLogic.ts:102-133 | The match branch keeps the structural invariant: matched cards are exactly those whose pair id is listed. |
| GameInvariants.ClickPreservesInv | src/hooks/useGameLogic.ts:81-165 | Every click that does not throw keeps the full invariant. |
| GameInvariants.DoubleTapIgnored | src/hooks/useGameLogic.ts:86-88 | Tapping the same card twice counts once, whether the first tap opened a selection, completed a match or made a mismatch: the second tap returns the state unchanged. |
| GameInvariants.FlipBackPreservesCore | src/hooks/useGameLogic.ts:138-147 | The unguarded flip-back keeps the structural invariant, whatever state it fires in. |
| GameInvariants.GuardedFlipBackPreservesInv | src/hooks/useGameLogic.ts:138-147 | The guarded flip-back keeps the full invariant. |
| GameInvariants.MismatchThenFlipBack | src/hooks/useGameLogic.ts:134-155 | Two mismatching clicks followed by their flip-back restore the state before them, except that moves rose by two. |
| GameInvariants.PausePreservesInv | src/hooks/useGameLogic.ts:167-215 | Pause, resume and tick keep the invariant. |
| GameInvariants.StaleFlipBackStrandsCard | src/hooks/useGameLogic.ts:138-147 | A flip-back that fires after a new selection has started leaves that card face up, unmatched and unselected, which breaks the full invariant. |
| GameInvariants.StrandedIsForever | src/hooks/useGameLogic.ts:81-165 | A stranded card stays stranded under every further click, so it can never be matched. |
| SoundManager.BaseVolume | src/utils/soundManager.ts:116-126 | Each clip's base volume is in (0, 0.8]. |
| SoundManager.Clamp | src/utils/soundManager.ts:166 | `Math.max(0, Math.min(1, v))` lies in [0, 1], is v on [0, 1], 0 below and 1 above. |
| SoundManager.UpdateAllVolumes | src/utils/soundManager.ts:109-114 | Every clip's volume becomes 0 when muted and base × master otherwise. Playback and settings are untouched. |
| SoundManager.SaveSettings | src/utils/soundManager.ts:97-107 | The record `{isMuted, masterVolume}` is stored under the settings key. Other keys and the settings themselves are untouched. |
| SoundManager.LoadMuted | src/utils/soundManager.ts:88 | A stored flag loads as muted only when it is present and true. A missing or false flag loads as unmuted. |
| SoundManager.LoadMasterVolume | src/utils/soundManager.ts:89 | A stored non-zero volume is taken. A missing volume, or a stored 0, gives 0.7. |
| SoundManager.LoadSettings | src/utils/soundManager.ts:83-95 | A missing or unparsable entry changes nothing. A present entry sets the mute flag (missing means false) and the master volume, then resets the clip volumes. |
| SoundManager.InitialSounds | src/utils/soundManager.ts:28-81 | Exactly the six sound types get a clip, each at its base volume times the default master volume 0.7, and none is playing. |
| SoundManager.New | src/utils/soundManager.ts:18-26 | After construction there is one clip per sound type, none playing, and the volumes follow the settings. With nothing stored, the manager is unmuted at master volume 0.7. |
| SoundManager.PlayCalls | src/utils/soundManager.ts:134-138 | `play` stops a clip before restarting it, except background music, and always ends with play. |
| SoundManager.Play | src/utils/soundManager.ts:129-140 | Playing is a no-op while muted. Otherwise the clip plays and every other clip is unchanged. |
| SoundManager.Stop | src/utils/soundManager.ts:142-147 | The clip stops and nothing else changes. |
| SoundManager.Pause | src/utils/soundManager.ts:149-154 | The clip pauses and nothing else changes. |
| SoundManager.Resume | src/utils/soundManager.ts:156-161 | Resuming is a no-op while muted. Otherwise the clip plays and nothing else changes. |
| SoundManager.SetVolume | src/utils/soundManager.ts:163-169 | One clip's volume becomes 0 when muted and clamp(v) × master otherwise. The settings are not saved. |
| SoundManager.SetMasterVolume | src/utils/soundManager.ts:171-175 | The master volume is clamped into [0, 1], the clip volumes follow it, and the settings are saved. |
| SoundManager.Mute | src/utils/soundManager.ts:181-185 | Muting silences every clip without stopping it and saves the settings. |
| SoundManager.Unmute | src/utils/soundManager.ts:187-191 | Unmuting restores base × master volumes and saves the settings. |
| SoundManager.ToggleMute | src/utils/soundManager.ts:193-199 | Toggling is `unmute` when muted and `mute` otherwise. The mute flag flips and the master volume stays. The clip volumes follow the settings and the settings are stored. Every clip is kept with its playback state, and every other storage key is untouched. |
| SoundManager.PlayBackgroundMusic | src/utils/soundManager.ts:206-210 | The extra mute check is redundant: this call equals `play` on background music. |
| SoundManager.VolumesInRange | src/utils/soundManager.ts:109-114 | Under consistent settings every clip volume lies in [0, 1]. |
| SoundManager.ToggleTwice | src/utils/soundManager.ts:193-199 | Toggling twice restores settings and clips. Its only trace is that the settings are now stored. |
| SoundManager.SettingsRoundTrip | src/utils/soundManager.ts:83-107 | Saved settings reload unchanged when the master volume is not 0. |
| SoundManager.ZeroMasterVolumeReloadsAsDefault | src/utils/soundManager.ts:89 | A saved master volume of 0 reloads as 0.7. |
| SoundManager.ReloadStaysInRange | src/utils/soundManager.ts:83-107 | Settings this manager wrote reload with the master volume in [0, 1]. |
| SoundManager.LoadDoesNotClamp | src/utils/soundManager.ts:89 | A stored master volume above 1 is loaded as is, outside [0, 1]. |
| Clock.NatToString | src/components/game/GameHeader.tsx:20 | `toString` of a natural number is a non-empty string of digits with no leading zero. It starts with 0 exactly for the number 0, has one digit exactly below 10, and has at most two below 100. |
| Clock.ParseNatToString | src/components/game/GameHeader.tsx:20 | Parsing the decimal string gives back the number. |
| Clock.PadStart2 | src/components/game/GameHeader.tsx:20 | `padStart(2, '0')` has length max(2, \|s\|), ends with s, and is preceded only by zeros. |
| Clock.PaddedParses | src/components/game/GameHeader.tsx:20 | A zero-padded decimal parses back to its number. |
| Clock.PaddedClock | src/components/game/GameHeader.tsx:17-21 | The `MM:SS` clock (also shown in the pause menu) is five characters below 100 minutes, has a seconds field below 60, and parses back to the elapsed seconds. |
| Clock.CompletionClock | src/components/pages/GameScreen.tsx:232 | The completion modal's `M:SS` time has an unpadded minutes field with no leading zero, so it is four characters below ten minutes. Its seconds field is below 60, and the time parses back to the elapsed seconds. |
| Clock.DashboardTime | src/components/pages/PlayerDashboard.tsx:18-22 | In the dashboard's `Xm Ys`, neither field is padded: both are written without leading zeros. It parses back to (seconds / 60, seconds % 60), with seconds below 60 and minutes × 60 + seconds equal to the input. |
| Views.ForwardClick | src/components/game/Card.tsx:14-18 | A tap is forwarded exactly when the grid is enabled and the card is face down and unmatched. It carries the card's own id. |
| Views.Look | src/components/game/Card.tsx:26-31 | The front shows exactly when the card is flipped or matched, and the back otherwise. The card is dimmed exactly when disabled and ringed exactly when matched. |
| Views.TappableIffBackShown | src/components/game/Card.tsx:14-50 | On an enabled grid a card accepts a tap exactly when it shows its back. A card showing its front never forwards a tap. |
| Views.ResolveIcon | src/components/game/Card.tsx:12 | A known icon name draws that icon, and an unknown one draws the circle. |
| Views.ForwardedClickIsAccepted | src/components/game/Card.tsx:14-18 | Under the invariant the card's guard forwards the card's position. The reducer accepts the forwarded click exactly when fewer than two cards are selected. |
| Views.HeaderStats | src/components/game/GameHeader.tsx:23-28 | The tiles are Level, Score, Moves and Time in that order. The time tile parses back to the elapsed seconds. |
| Views.GridDisabled | src/components/pages/GameScreen.tsx:39 | The grid is enabled exactly while playing. |
| Views.PairCounter | src/components/pages/GameScreen.tsx:37-38 | Under the invariant the matched/total counter never exceeds the total, and is full exactly when every card is matched. |
| Views.CompletionButtons | src/components/pages/GameScreen.tsx:238-246 | The modal shows exactly `[NEXT LEVEL] PLAY AGAIN HOME`: three buttons with NEXT LEVEL first when its handler is supplied, otherwise just PLAY AGAIN and HOME. |
| Views.DashboardTiles | src/components/pages/PlayerDashboard.tsx:37-77 | The tiles are highest level, best score, games played and average time in that order. The time tile reads back as minutes and seconds of the stored average. |
| App.ContinueLevel | src/App.tsx:34 | CONTINUE starts the highest level reached, or level 1 when that is 0. |
| App.HandleStart | src/App.tsx:24-31 | A returning player goes to the dashboard with the game untouched. A new player starts level 1 in the game view. |
| App.HandleContinue | src/App.tsx:33-36 | CONTINUE replaces the game by a freshly started game at the continue level (`highestLevel || 1`) and shows the game view. Modals and progress are untouched. |
| App.HandleNewGame | src/App.tsx:38-41 | NEW GAME replaces the game by a freshly started level 1 and shows the game view. Modals and progress are untouched. |
| App.HandleHome | src/App.tsx:43-47 | HOME shows the welcome view with both modals closed. The game is neither paused nor changed. |
| App.HandlePause | src/App.tsx:49-52 | Pausing sets the game `paused` and opens the pause modal. Nothing else changes. |
| App.HandleResume | src/App.tsx:54-57 | Resuming sets the game `playing` and closes the pause modal. Nothing else changes. |
| App.HandleNextLevel | src/App.tsx:59-63 | NEXT LEVEL replaces the game by a freshly started level + 1, with no upper cap, and closes the completion modal. The view and progress are unchanged. |
| App.HandlePlayAgain | src/App.tsx:65-68 | PLAY AGAIN replaces the game by a freshly started game at the same level: new deck, zero score, moves and time, empty selection and matched list. It closes the completion modal. |
| App.Settle | src/App.tsx:71-75 | On the move into `completed` the completion modal opens and the progress is committed once. Any other change leaves modal and progress alone. |
| App.TapCard | src/App.tsx:101 | A tap the card's guard refuses changes nothing. A tap that goes through keeps the view and pause modal, and counts a game exactly when it completes the session, opening the completion modal. |
| App.TimerTick | src/hooks/useGameLogic.ts:201-215 | A tick adds one second while playing and touches nothing outside the game. |
| App.MismatchTimeout | src/hooks/useGameLogic.ts:138-147 | As written: when the timeout fires it turns down the two ids and empties the selection of whatever game is current. Score, status and everything outside the game are unchanged. |
| App.GuardedMismatchTimeout | src/hooks/useGameLogic.ts:138-147 | Corrected: the timeout acts only while the selection is still exactly the mismatched pair, and changes nothing otherwise. |
| App.GridCols | src/App.tsx:78-100 | The grid has a positive column count. It is the deck's own row inside the catalogue and level 4's six columns outside it. |
| App.StartedDeckFitsGrid | src/App.tsx:78-100 | Every started deck fills whole grid rows. Out of range, the 12 cards of level 1 fill two rows of level 4's six columns. |
| App.Launch | src/App.tsx:8-21 | At launch the welcome view shows with both modals closed. The game is idle at level 1 with no cards, no selection and zero counters, and the progress is whatever was read from storage. |
| App.LaunchInv | src/App.tsx:8-21 | The launch state satisfies the application invariant. |
| App.FreshInstallStartsLevelOne | src/hooks/useGameLogic.ts:14-20 | With the initial stored progress, CONTINUE would start level 1, and START goes straight into a fresh level 1 that satisfies the application invariant. |
| App.StartLevelInv | src/hooks/useGameLogic.ts:66-78 | Any started level satisfies the game invariant and fits its grid. |
| App.StartPreservesInv | src/App.tsx:24-31 | START keeps the application invariant. |
| App.ContinuePreservesInv | src/App.tsx:33-36 | CONTINUE yields a state satisfying the application invariant. |
| App.NewGamePreservesInv | src/App.tsx:38-41 | NEW GAME yields a state satisfying the application invariant. |
| App.NextLevelPreservesInv | src/App.tsx:59-63 | NEXT LEVEL yields a state satisfying the application invariant, even past level 4. |
| App.PlayAgainPreservesInv | src/App.tsx:65-68 | PLAY AGAIN yields a state satisfying the application invariant. |
| App.StatusEventsPreserveInv | src/App.tsx:43-57 | HOME, pause, resume and the timer keep the application invariant. |
| App.TapPreservesInv | src/App.tsx:71-75 | Under the invariant a tap never throws and keeps the invariant. The session completes exactly when it was playing, not all cards were matched before, and all are matched after. |
| App.TimeoutKeepsCore | src/hooks/useGameLogic.ts:138-147 | The unguarded timeout keeps the structural invariant and the grid fit, whatever state it fires in. |
| App.GuardedTimeoutPreservesInv | src/hooks/useGameLogic.ts:138-147 | The guarded timeout keeps the application invariant in every state. |
| App.TimeoutAfterMismatch | src/hooks/useGameLogic.ts:134-147 | Fired while its own mismatched pair is still selected, the timeout agrees with the guarded one, restores the application invariant and empties the selection, so play goes on. |
| App.RestartDealsFresh | src/App.tsx:24-31 | HOME then START for a new player replaces whatever game was on the table by a fresh level 1 with nothing selected that satisfies the application invariant. |
| App.FirstTap | src/hooks/useGameLogic.ts:90-94 | Tapping a face-down card while nothing is selected goes through, keeps the invariant and makes that card the whole selection. |
| App.StaleTimeout | src/hooks/useGameLogic.ts:138-147 | A pending timeout for [x, y] that fires once the selection is [z] strands z and breaks the application invariant. The guarded timeout leaves that state unchanged. |
| App.StaleTimeoutAcrossRestart | src/hooks/useGameLogic.ts:138-147 | The whole trace: with a mismatched pair on the table, HOME, START for a new player and a tap on another card z leave z as the selection. The pending timeout then strands z and breaks the invariant, while the guarded one does nothing. |

## Left out

- Rendering and styling: layout, CSS classes, animations, icons beyond the name lookup, the dashboard's "Ready for Level n?" caption, and the dashboard progress bar width. The bar width is a floating-point percentage.
- Number formatting by `toLocaleString`. Score tiles carry the number itself.
- Sound cues in the reducer (match success, match fail, level complete) and their delays. They only reach the audio layer.
- React scheduling. A state update, a timeout or an interval becomes an explicit call. The model does not fix when the environment makes those calls.
- The completion effect re-running whenever the game state changes while `completed`. The model commits the progress once, on the event that moves the session into `completed`.
- The stored player progress. The local-storage hook that holds it is not part of this model, so progress is a plain value.
- Progress fields are assumed to be as this code writes them: `totalGamesPlayed` and `averageTime` are naturals.
- The uniformity of `Math.random`. Any draws with `draws[i] <= i` are allowed.
- Howler itself: loading, decoding, the `html5`, `loop` and `preload` flags, load and play error callbacks, and `unload`. A clip is reduced to a volume and a playing flag.
- Floating-point rounding of the volume products. Volumes are exact reals.
- The `getMasterVolume` and `isMutedState` getters. They return a field.
- The `stopBackgroundMusic`, `pauseBackgroundMusic` and `resumeBackgroundMusic` wrappers. They are `Stop`, `Pause` and `Resume` on background music.
- Exceptions from `localStorage` or `JSON.parse`. Both are caught and logged in the source; the model treats an unparsable entry as absent.
- The audio hooks and audio controls component. They are not part of this model.
- GameLogic.Click: reading a card past the end of the deck throws in the source. The model returns `Err` with the index and does not model what React does with the exception.

## Findings

| source | as written | input that shows it | evidently intended | confidence | as-written member | corrected member |
|---|---|---|---|---|---|---|
| src/hooks/useGameLogic.ts:138-147 | The mismatch timeout turns down cards by id and empties the selection of whatever game state is current one second later. Nothing checks that it is still the same session or selection. | Mismatch cards a and b. Within the second, go HOME and start or continue a game, then tap a card x with x ≠ a, b. When the timeout fires it empties the selection and leaves x face up, unmatched and unselected. x's card guard and the reducer both refuse it from then on, so the level can never complete. | Turn the pair back only while the selection is still exactly [a, b], i.e. cancel the timeout when a new game starts. | medium (depends on timing); not executed | GameLogic.FlipBack, App.MismatchTimeout, GameInvariants.StaleFlipBackStrandsCard, GameInvariants.StrandedIsForever, App.StaleTimeoutAcrossRestart | GameLogic.GuardedFlipBack, App.GuardedMismatchTimeout, GameInvariants.GuardedFlipBackPreservesInv, App.GuardedTimeoutPreservesInv |

=== FILE: app.dfy ===
/** The screen-navigation state machine of the application shell: which
    view is shown, the pause and completion modals, and how each button
    drives the game reducer. The completion effect is modelled as part of
    the card tap that moves the session into `completed`. */
module App {
  import opened Wrappers
  import opened Levels
  import opened Deck
  import opened GameLogic
  import opened GameInvariants
  import opened Views

  datatype View = Welcome | Dashboard | Game

  datatype AppState = AppState(
    view: View,
    showPauseModal: bool,
    showCompletionModal: bool,
    game: GameState,
    progress: PlayerProgress)

  /** The shell at launch, with the progress read from storage. */
  function Launch(progress: PlayerProgress): (a: AppState)
    ensures a.view == Welcome && !a.showPauseModal && !a.showCompletionModal
    ensures a.game.status == Idle && a.game.currentLevel == 1
    ensures a.game.cards == [] && a.game.flippedCards == [] && a.game.matchedPairs == []
    ensures a.game.score == 0 && a.game.moves == 0 && a.game.timeElapsed == 0
    ensures a.progress == progress
  {
    AppState(Welcome, false, false, InitialState, progress)
  }

  /** The level CONTINUE starts: the highest level reached, or 1 when that
      is 0 (falsy). */
  function ContinueLevel(p: PlayerProgress): (level: int)
    ensures level != 0
    ensures p.highestLevel != 0 ==> level == p.highestLevel
    ensures p.highestLevel == 0 ==> level == 1
  {
    if p.highestLevel != 0 then p.highestLevel else 1
  }

  /** START: a returning player goes to the dashboard with the game left as
      it is; a new player starts level 1 straight away. */
  function HandleStart(a: AppState, draws: seq<nat>): (b: AppState)
    requires a.progress.hasPlayed || ValidDraws(draws, DeckSize(1))
    ensures a.progress.hasPlayed ==> b == a.(view := Dashboard)
    ensures !a.progress.hasPlayed ==> b == a.(view := Game, game := StartGame(1, draws))
  {
    if a.progress.hasPlayed then a.(view := Dashboard)
    else a.(game := StartGame(1, draws), view := Game)
  }

  function HandleContinue(a: AppState, draws: seq<nat>): (b: AppState)
    requires ValidDraws(draws, DeckSize(ContinueLevel(a.progress)))
    ensures b == a.(view := Game, game := StartGame(ContinueLevel(a.progress), draws))
    ensures b.game.status == Playing && b.game.currentLevel == ContinueLevel(a.progress)
  {
    a.(game := StartGame(ContinueLevel(a.progress), draws), view := Game)
  }

  function HandleNewGame(a: AppState, draws: seq<nat>): (b: AppState)
    requires ValidDraws(draws, DeckSize(1))
    ensures b == a.(view := Game, game := StartGame(1, draws))
    ensures b.game.status == Playing && b.game.currentLevel == 1
  {
    a.(game := StartGame(1, draws), view := Game)
  }

  /** HOME: back to the welcome view with both modals closed; the game is
      neither paused nor otherwise touched. */
  function HandleHome(a: AppState): (b: AppState)
    ensures b.view == Welcome && !b.showPauseModal && !b.showCompletionModal
    ensures b.game == a.game && b.progress == a.progress
  {
    a.(view := Welcome, showPauseModal := false, showCompletionModal := false)
  }

  function HandlePause(a: AppState): (b: AppState)
    ensures b.game.status == Paused && b.showPauseModal
    ensures b.game.(status := a.game.status) == a.game
    ensures b.(game := a.game, showPauseModal := a.showPauseModal) == a
  {
    a.(game := Pause(a.game), showPauseModal := true)
  }

  function HandleResume(a: AppState): (b: AppState)
    ensures b.game.status == Playing && !b.showPauseModal
    ensures b.game.(status := a.game.status) == a.game
    ensures b.(game := a.game, showPauseModal := a.showPauseModal) == a
  {
    a.(game := Resume(a.game), showPauseModal := false)
  }

  /** NEXT LEVEL: start the level after the current one, uncapped. */
  function HandleNextLevel(a: AppState, draws: seq<nat>): (b: AppState)
    requires ValidDraws(draws, DeckSize(a.game.currentLevel + 1))
    ensures b == a.(game := StartGame(a.game.currentLevel + 1, draws), showCompletionModal := false)
    ensures b.game.currentLevel == a.game.currentLevel + 1 && b.game.status == Playing
  {
    a.(game := StartGame(a.game.currentLevel + 1, draws), showCompletionModal := false)
  }

  /** PLAY AGAIN: restart the current level. */
  function HandlePlayAgain(a: AppState, draws: seq<nat>): (b: AppState)
    requires ValidDraws(draws, DeckSize(a.game.currentLevel))
    ensures b == a.(game := StartGame(a.game.currentLevel, draws), showCompletionModal := false)
    ensures b.game.currentLevel == a.game.currentLevel && b.game.status == Playing
    ensures b.game.moves == 0 && b.game.score == 0 && b.game.timeElapsed == 0
    ensures b.game.flippedCards == [] && b.game.matchedPairs == []
  {
    a.(game := StartGame(a.game.currentLevel, draws), showCompletionModal := false)
  }

  /** True when the session just moved into `completed`. */
  predicate Completes(before: GameState, after: GameState) {
    before.status != Completed && after.status == Completed
  }

  /** Install a new game state and run the completion effects: on the move
      into `completed`, open the completion modal and commit the progress,
      once. */
  function Settle(a: AppState, g: GameState): (b: AppState)
    ensures b.game == g && b.view == a.view && b.showPauseModal == a.showPauseModal
    ensures Completes(a.game, g) ==> b.showCompletionModal && b.progress == CompleteGame(a.progress, g)
    ensures !Completes(a.game, g) ==> b.showCompletionModal == a.showCompletionModal && b.progress == a.progress
  {
    if Completes(a.game, g) then
      a.(game := g, showCompletionModal := true, progress := CompleteGame(a.progress, g))
    else a.(game := g)
  }

  /** A tap on the card drawn at position `index`: the card's guard, then
      the click reducer, then the completion effects. */
  function TapCard(a: AppState, index: int): (r: Result<AppState>)
    requires 0 <= index < |a.game.cards|
    ensures ForwardClick(a.game.cards[index], GridDisabled(a.game)).None? ==> r == Ok(a)
    ensures r.Ok? ==> r.value.view == a.view && r.value.showPauseModal == a.showPauseModal
    ensures r.Ok? ==>
      r.value.progress.totalGamesPlayed == a.progress.totalGamesPlayed + (if Completes(a.game, r.value.game) then 1 else 0)
    ensures r.Ok? && Completes(a.game, r.value.game) ==> r.value.showCompletionModal
  {
    match ForwardClick(a.game.cards[index], GridDisabled(a.game))
    case None => Ok(a)
    case Some(id) =>
      match Click(a.game, id)
      case Err(f) => Err(f)
      case Ok(g) => Ok(Settle(a, g))
  }

  /** One tick of the game timer. */
  function TimerTick(a: AppState): (b: AppState)
    ensures b.game.timeElapsed == a.game.timeElapsed + (if a.game.status == Playing then 1 else 0)
    ensures b.(game := a.game) == a
  {
    a.(game := Tick(a.game))
  }

  /** The one-second timeout a mismatch schedules, as written: when it
      fires it turns down the cards `x` and `y` of whatever game is current
      and empties its selection. Nothing outside the game changes. */
  function MismatchTimeout(a: AppState, x: int, y: int): (b: AppState)
    ensures b.game == FlipBack(a.game, x, y)
    ensures b.game.flippedCards == [] && b.game.score == a.game.score && b.game.status == a.game.status
    ensures b.(game := a.game) == a
  {
    a.(game := FlipBack(a.game, x, y))
  }

  /** The timeout with the guard it evidently needs: it fires only while
      the current selection is still the mismatched pair `[x, y]`. */
  function GuardedMismatchTimeout(a: AppState, x: int, y: int): (b: AppState)
    ensures a.game.flippedCards == [x, y] ==> b == MismatchTimeout(a, x, y)
    ensures a.game.flippedCards != [x, y] ==> b == a
  {
    a.(game := GuardedFlipBack(a.game, x, y))
  }

  /** Column count handed to the card grid: from the screen's lookup, which
      falls back to the last catalogue row. */
  function GridCols(a: AppState): (cols: nat)
    ensures cols > 0
    ensures InCatalogue(a.game.currentLevel) ==> cols == DeckConfig(a.game.currentLevel).gridCols
    ensures !InCatalogue(a.game.currentLevel) ==> cols == Level4.gridCols
  {
    LookupsAgreeExactlyInCatalogue(a.game.currentLevel);
    CatalogueWellShaped();
    GetLevelConfig(a.game.currentLevel).gridCols
  }

  /** The deck fills whole rows of the grid the screen lays it out on. */
  predicate GridFits(g: GameState) {
    CatalogueWellShaped();
    |g.cards| % GetLevelConfig(g.currentLevel).gridCols == 0
  }

  // ---------------------------------------------------------------------
  // Properties across events

  /** Every started level fills whole grid rows, even out of catalogue
      range, where the deck has level 1's 12 cards and the grid level 4's
      6 columns. */
  lemma StartedDeckFitsGrid(level: int, draws: seq<nat>)
    requires ValidDraws(draws, DeckSize(level))
    ensures |StartGame(level, draws).cards| % GetLevelConfig(level).gridCols == 0
    ensures !InCatalogue(level) ==> |StartGame(level, draws).cards| == 12 && GetLevelConfig(level).gridCols == 6
  {
    DeckFillsGrid(level);
    assert |StartGame(level, draws).cards| == 2 * DeckConfig(level).pairCount;
  }

  /** The invariant an application state keeps. */
  predicate AppInv(a: AppState) {
    Inv(a.game) && GridFits(a.game)
  }

  lemma LaunchInv(progress: PlayerProgress)
    ensures AppInv(Launch(progress))
  {
    InitialStateInv();
  }

  /** On a fresh install the stored progress is the initial record: START
      goes straight into level 1, and CONTINUE would also start level 1. */
  lemma FreshInstallStartsLevelOne(draws: seq<nat>)
    requires ValidDraws(draws, DeckSize(1))
    ensures ContinueLevel(InitialProgress) == 1
    ensures var b := HandleStart(Launch(InitialProgress), draws);
      b.view == Game && b.game == StartGame(1, draws) && b.progress == InitialProgress && AppInv(b)
  {
    StartLevelInv(1, draws);
  }

  lemma StartLevelInv(level: int, draws: seq<nat>)
    requires ValidDraws(draws, DeckSize(level))
    ensures Inv(StartGame(level, draws)) && GridFits(StartGame(level, draws))
  {
    StartGameInv(level, draws);
    StartedDeckFitsGrid(level, draws);
  }

  /** Every event that starts a level keeps the invariants. */
  lemma StartPreservesInv(a: AppState, draws: seq<nat>)
    requires AppInv(a) && (a.progress.hasPlayed || ValidDraws(draws, DeckSize(1)))
    ensures AppInv(HandleStart(a, draws))
  {
    if !a.progress.hasPlayed { StartLevelInv(1, draws); }
  }

  lemma ContinuePreservesInv(a: AppState, draws: seq<nat>)
    requires ValidDraws(draws, DeckSize(ContinueLevel(a.progress)))
    ensures AppInv(HandleContinue(a, draws))
  {
    StartLevelInv(ContinueLevel(a.progress), draws);
  }

  lemma NewGamePreservesInv(a: AppState, draws: seq<nat>)
    requires ValidDraws(draws, DeckSize(1))
    ensures AppInv(HandleNewGame(a, draws))
  {
    StartLevelInv(1, draws);
  }

  lemma NextLevelPreservesInv(a: AppState, draws: seq<nat>)
    requires ValidDraws(draws, DeckSize(a.game.currentLevel + 1))
    ensures AppInv(HandleNextLevel(a, draws))
  {
    var level := a.game.currentLevel + 1;
    StartLevelInv(level, draws);
    assert HandleNextLevel(a, draws) == a.(game := StartGame(level, draws), showCompletionModal := false);
  }

  lemma PlayAgainPreservesInv(a: AppState, draws: seq<nat>)
    requires ValidDraws(draws, DeckSize(a.game.currentLevel))
    ensures AppInv(HandlePlayAgain(a, draws))
  {
    StartLevelInv(a.game.currentLevel, draws);
  }

  /** Home, pause, resume and the timer keep the invariants. */
  lemma StatusEventsPreserveInv(a: AppState)
    requires AppInv(a)
    ensures AppInv(HandleHome(a)) && AppInv(HandlePause(a)) && AppInv(HandleResume(a)) && AppInv(TimerTick(a))
  {
    PausePreservesInv(a.game);
    assert HandlePause(a).game.cards == a.game.cards && HandlePause(a).game.currentLevel == a.game.currentLevel;
    assert HandleResume(a).game.cards == a.game.cards && HandleResume(a).game.currentLevel == a.game.currentLevel;
    assert TimerTick(a).game.cards == a.game.cards && TimerTick(a).game.currentLevel == a.game.currentLevel;
  }

  /** A mismatch timeout, stale or not, keeps the core invariant and the
      grid fit; the guarded one keeps the whole application invariant. */
  lemma TimeoutKeepsCore(a: AppState, x: int, y: int)
    requires Core(a.game) && GridFits(a.game)
    ensures Core(MismatchTimeout(a, x, y).game) && GridFits(MismatchTimeout(a, x, y).game)
  {
    FlipBackPreservesCore(a.game, x, y);
  }

  lemma GuardedTimeoutPreservesInv(a: AppState, x: int, y: int)
    requires AppInv(a)
    ensures AppInv(GuardedMismatchTimeout(a, x, y))
  {
    GuardedFlipBackPreservesInv(a.game, x, y);
  }

  /** The timeout undoes the mismatch it was scheduled for: right after
      the mismatching tap it restores the invariant and empties the
      selection, so play can go on. */
  lemma TimeoutAfterMismatch(a: AppState, x: int, y: int)
    requires AppInv(a) && a.game.flippedCards == [x, y]
    ensures MismatchTimeout(a, x, y) == GuardedMismatchTimeout(a, x, y)
    ensures AppInv(MismatchTimeout(a, x, y)) && MismatchTimeout(a, x, y).game.flippedCards == []
  {
    GuardedTimeoutPreservesInv(a, x, y);
  }

  /** HOME then START for a new player deals a fresh level 1 with nothing
      selected, whatever game was on the table. */
  lemma RestartDealsFresh(a: AppState, draws: seq<nat>)
    requires !a.progress.hasPlayed && ValidDraws(draws, DeckSize(1))
    ensures var b := HandleStart(HandleHome(a), draws);
      && b.game == StartGame(1, draws) && AppInv(b)
      && |b.game.cards| == DeckSize(1) && b.game.flippedCards == []
  {
    StartLevelInv(1, draws);
  }

  /** The first tap on a face-down card of a game with nothing selected
      makes that card the whole selection. */
  lemma FirstTap(b: AppState, z: int)
    requires AppInv(b) && b.game.status == Playing && b.game.flippedCards == []
    requires 0 <= z < |b.game.cards| && !b.game.cards[z].isFlipped && !b.game.cards[z].isMatched
    ensures TapCard(b, z).Ok?
    ensures AppInv(TapCard(b, z).value) && TapCard(b, z).value.game.flippedCards == [z]
  {
    TapPreservesInv(b, z);
    ClickFirstCard(b.game, z);
  }

  /** A pending timeout for `[x, y]` that fires once the selection is
      `[z]` strands `z` and breaks the invariant; the guarded one leaves
      the state alone. */
  lemma StaleTimeout(c: AppState, x: int, y: int)
    requires AppInv(c) && |c.game.flippedCards| == 1
    requires c.game.flippedCards[0] != x && c.game.flippedCards[0] != y
    ensures Stranded(MismatchTimeout(c, x, y).game, c.game.flippedCards[0])
    ensures !AppInv(MismatchTimeout(c, x, y))
    ensures GuardedMismatchTimeout(c, x, y) == c
  {
    StaleFlipBackStrandsCard(c.game, x, y);
  }

  /** The stale timeout across a restart: with a mismatched pair `[x, y]`
      on the table, a new player goes HOME, presses START and taps card
      `z` of the new deck within the second. The pending timeout then
      turns down the new deck's `x` and `y` and empties the selection, so
      `z` is left face up, unmatched and unselected, and the invariant is
      broken. The guarded timeout leaves that state alone. */
  lemma StaleTimeoutAcrossRestart(a: AppState, draws: seq<nat>, z: int)
    requires AppInv(a) && |a.game.flippedCards| == 2 && !a.progress.hasPlayed
    requires ValidDraws(draws, DeckSize(1))
    requires 0 <= z < DeckSize(1) && z != a.game.flippedCards[0] && z != a.game.flippedCards[1]
    ensures var b := HandleStart(HandleHome(a), draws);
      && 0 <= z < |b.game.cards|
      && TapCard(b, z).Ok?
      && var c := TapCard(b, z).value;
        && c.game.flippedCards == [z] && AppInv(c)
        && Stranded(MismatchTimeout(c, a.game.flippedCards[0], a.game.flippedCards[1]).game, z)
        && !AppInv(MismatchTimeout(c, a.game.flippedCards[0], a.game.flippedCards[1]))
        && GuardedMismatchTimeout(c, a.game.flippedCards[0], a.game.flippedCards[1]) == c
  {
    var x, y := a.game.flippedCards[0], a.game.flippedCards[1];
    var b := HandleStart(HandleHome(a), draws);
    RestartDealsFresh(a, draws);
    assert !b.game.cards[z].isFlipped && !b.game.cards[z].isMatched;
    FirstTap(b, z);
    var c := TapCard(b, z).value;
    StaleTimeout(c, x, y);
  }

  /** Under the invariants a tap never throws, keeps the invariants, and
      commits the progress exactly when it completes the session, which is
      exactly when it leaves every card matched. */
  lemma TapPreservesInv(a: AppState, index: int)
    requires AppInv(a) && 0 <= index < |a.game.cards|
    ensures TapCard(a, index).Ok?
    ensures var b := TapCard(a, index).value;
      && AppInv(b)
      && (Completes(a.game, b.game) <==>
            a.game.status == Playing && !AllMatched(a.game.cards) && AllMatched(b.game.cards))
  {
    match ForwardClick(a.game.cards[index], GridDisabled(a.game))
    case None =>
    case Some(id) =>
      ClickPreservesInv(a.game, id);
      var g := Click(a.game, id).value;
      if a.game.status == Playing && Accepts(a.game, id) && |a.game.flippedCards| == 1
         && a.game.cards[a.game.flippedCards[0]].pairId == a.game.cards[id].pairId {
        ClickMatch(a.game, id);
      }
  }
}

=== FILE: clock.dfy ===
/** The clock strings the screens show, built from `toString` and
    `padStart(2, '0')`, and parsers that read them back. */
module Clock {
  import opened Wrappers

  predicate IsDigit(c: char) {
    '0' <= c <= '9'
  }

  predicate AllDigits(s: string) {
    forall i :: 0 <= i < |s| ==> IsDigit(s[i])
  }

  function Digit(d: nat): (c: char)
    requires d < 10
    ensures IsDigit(c)
    ensures c == '0' <==> d == 0
  {
    "0123456789"[d]
  }

  function DigitValue(c: char): (d: nat)
    requires IsDigit(c)
    ensures d < 10
  {
    (c as int) - ('0' as int)
  }

  lemma DigitValueOfDigit(d: nat)
    requires d < 10
    ensures DigitValue(Digit(d)) == d
  {
  }

  /** A decimal field as `toString` writes it: at least one digit, and no
      leading zero unless the field is the single digit 0. */
  predicate Canonical(f: string) {
    1 <= |f| && AllDigits(f) && (|f| == 1 || f[0] != '0')
  }

  /** `n.toString()` for a non-negative integer: decimal, no leading zero. */
  function NatToString(n: nat): (s: string)
    ensures 1 <= |s| && AllDigits(s)
    ensures Canonical(s) && (s[0] == '0' <==> n == 0)
    ensures |s| == 1 <==> n < 10
    ensures n < 100 ==> |s| <= 2
    decreases n
  {
    if n < 10 then [Digit(n)] else NatToString(n / 10) + [Digit(n % 10)]
  }

  /** The value of a string of decimal digits (leading zeros allowed). */
  function ParseNat(s: string): nat
    requires AllDigits(s)
    decreases |s|
  {
    if |s| == 0 then 0 else ParseNat(s[..|s| - 1]) * 10 + DigitValue(s[|s| - 1])
  }

  /** `toString` and `ParseNat` are inverse. */
  lemma {:induction false} ParseNatToString(n: nat)
    ensures ParseNat(NatToString(n)) == n
    decreases n
  {
    var s := NatToString(n);
    if n < 10 {
      DigitValueOfDigit(n);
    } else {
      ParseNatToString(n / 10);
      assert s[..|s| - 1] == NatToString(n / 10);
      DigitValueOfDigit(n % 10);
    }
  }

  function Zeros(k: nat): (z: string)
    ensures |z| == k && AllDigits(z)
    ensures forall i :: 0 <= i < k ==> z[i] == '0'
  {
    if k == 0 then [] else Zeros(k - 1) + ['0']
  }

  /** A run of zeros reads as 0. */
  lemma {:induction false} ParseNatZeros(k: nat)
    ensures ParseNat(Zeros(k)) == 0
  {
    if k > 0 {
      var z := Zeros(k);
      ParseNatZeros(k - 1);
      assert z[..k - 1] == Zeros(k - 1);
      assert ParseNat(z) == ParseNat(z[..k - 1]) * 10 + DigitValue(z[k - 1]);
    }
  }

  /** Leading zeros do not change the value. */
  lemma {:induction false} ParseNatLeadingZeros(k: nat, s: string)
    requires AllDigits(s)
    ensures AllDigits(Zeros(k) + s)
    ensures ParseNat(Zeros(k) + s) == ParseNat(s)
    decreases |s|
  {
    var z := Zeros(k);
    if |s| == 0 {
      assert z + s == z;
      ParseNatZeros(k);
    } else {
      var init := s[..|s| - 1];
      ParseNatLeadingZeros(k, init);
      var zs := z + s;
      assert zs[..|zs| - 1] == z + init;
      assert zs[|zs| - 1] == s[|s| - 1];
      assert ParseNat(zs) == ParseNat(z + init) * 10 + DigitValue(s[|s| - 1]);
    }
  }

  /** `padStart(2, '0')`: left-pad with zeros to two characters; longer
      strings are kept whole. */
  function PadStart2(s: string): (r: string)
    ensures |r| == (if |s| >= 2 then |s| else 2)
    ensures r[|r| - |s|..] == s
    ensures forall i :: 0 <= i < |r| - |s| ==> r[i] == '0'
  {
    if |s| >= 2 then s else Zeros(2 - |s|) + s
  }

  /** A zero-padded decimal reads back as the number it pads. */
  lemma PaddedParses(n: nat)
    ensures AllDigits(PadStart2(NatToString(n)))
    ensures ParseNat(PadStart2(NatToString(n))) == n
  {
    var s := NatToString(n);
    ParseNatToString(n);
    if |s| < 2 {
      ParseNatLeadingZeros(2 - |s|, s);
    }
  }

  /** Read an `M:SS` or `MM:SS` clock: digits, a colon, then exactly two
      digits of seconds. */
  function ParseClock(r: string): (t: Option<nat>)
    ensures t.Some? ==> |r| >= 4 && r[|r| - 3] == ':'
  {
    if |r| >= 4 && r[|r| - 3] == ':' && AllDigits(r[..|r| - 3]) && AllDigits(r[|r| - 2..]) then
      Some(ParseNat(r[..|r| - 3]) * 60 + ParseNat(r[|r| - 2..]))
    else None
  }

  /** Any `digits:dd` string reads back field by field. */
  lemma ParseClockFields(mins: string, secs: string)
    requires AllDigits(mins) && AllDigits(secs) && |mins| >= 1 && |secs| == 2
    ensures var r := mins + ":" + secs;
      && r[|r| - 3] == ':' && r[..|r| - 3] == mins && r[|r| - 2..] == secs
      && ParseClock(r) == Some(ParseNat(mins) * 60 + ParseNat(secs))
  {
    var r := mins + ":" + secs;
    assert r[..|r| - 3] == mins;
    assert r[|r| - 2..] == secs;
  }

  lemma MinutesAndSeconds(seconds: nat)
    ensures (seconds / 60) * 60 + seconds % 60 == seconds
    ensures seconds % 60 < 60
    ensures seconds < 6000 ==> seconds / 60 < 100
    ensures seconds < 600 ==> seconds / 60 < 10
  {
  }

  lemma PadShort(n: nat)
    requires n < 100
    ensures |PadStart2(NatToString(n))| == 2
  {
  }

  /** `MM:SS`, both fields zero-padded to two digits; minutes grow past two
      digits rather than wrap. The seconds field is worth less than 60, the
      clock is five characters below 100 minutes, and it reads back as the
      number of seconds it shows. */
  function PaddedClock(seconds: nat): (r: string)
    ensures |r| >= 5 && r[|r| - 3] == ':'
    ensures AllDigits(r[|r| - 2..]) && ParseNat(r[|r| - 2..]) < 60
    ensures seconds < 6000 ==> |r| == 5
    ensures ParseClock(r) == Some(seconds)
  {
    var mins := PadStart2(NatToString(seconds / 60));
    var secs := PadStart2(NatToString(seconds % 60));
    PaddedFields(seconds, mins, secs);
    mins + ":" + secs
  }

  /** The two padded fields of the `MM:SS` clock, joined by a colon. */
  lemma PaddedFields(seconds: nat, mins: string, secs: string)
    requires mins == PadStart2(NatToString(seconds / 60)) && secs == PadStart2(NatToString(seconds % 60))
    ensures |mins + ":" + secs| >= 5
    ensures seconds < 6000 ==> |mins + ":" + secs| == 5
    ensures AllDigits(secs) && ParseNat(secs) < 60
    ensures ParseClock(mins + ":" + secs) == Some(seconds)
  {
    MinutesAndSeconds(seconds);
    PadShort(seconds % 60);
    ShortMinutes(seconds);
    PaddedParses(seconds / 60);
    PaddedParses(seconds % 60);
    ParseClockFields(mins, secs);
  }

  lemma ShortMinutes(seconds: nat)
    ensures seconds < 6000 ==> |PadStart2(NatToString(seconds / 60))| == 2
  {
    if seconds < 6000 {
      MinutesAndSeconds(seconds);
      PadShort(seconds / 60);
    }
  }

  /** `M:SS`: minutes unpadded, seconds zero-padded. The minutes field is
      written without leading zeros, the seconds field is worth less than
      60, and the clock reads back as the number of seconds. */
  function CompletionClock(seconds: nat): (r: string)
    ensures |r| >= 4 && r[|r| - 3] == ':'
    ensures Canonical(r[..|r| - 3])
    ensures seconds < 600 ==> |r| == 4
    ensures AllDigits(r[|r| - 2..]) && ParseNat(r[|r| - 2..]) < 60
    ensures ParseClock(r) == Some(seconds)
  {
    var mins := NatToString(seconds / 60);
    var secs := PadStart2(NatToString(seconds % 60));
    CompletionFields(seconds, mins, secs);
    CompletionWidths(seconds, mins, secs);
    mins + ":" + secs
  }

  /** The unpadded minutes and padded seconds of the `M:SS` clock, joined
      by a colon. */
  lemma CompletionFields(seconds: nat, mins: string, secs: string)
    requires mins == NatToString(seconds / 60) && secs == PadStart2(NatToString(seconds % 60))
    ensures AllDigits(secs) && ParseNat(secs) < 60
    ensures ParseClock(mins + ":" + secs) == Some(seconds)
  {
    MinutesAndSeconds(seconds);
    ParseNatToString(seconds / 60);
    PaddedParses(seconds % 60);
    ParseClockFields(mins, secs);
  }

  /** The field lengths of the `M:SS` clock. */
  lemma CompletionWidths(seconds: nat, mins: string, secs: string)
    requires mins == NatToString(seconds / 60) && secs == PadStart2(NatToString(seconds % 60))
    ensures (mins + ":" + secs)[..|mins|] == mins && |secs| == 2
    ensures seconds < 600 ==> |mins| == 1
  {
    MinutesAndSeconds(seconds);
    PadShort(seconds % 60);
    assert (mins + ":" + secs)[..|mins|] == mins;
  }

  /** Position of the first `c` in `s`, or `|s|`. */
  function IndexOf(s: string, c: char): (k: nat)
    ensures k <= |s|
    ensures k < |s| ==> s[k] == c
    ensures forall i :: 0 <= i < k ==> s[i] != c
  {
    if |s| == 0 then 0 else if s[0] == c then 0 else 1 + IndexOf(s[1..], c)
  }

  /** Read `Xm Ys` back into minutes and seconds. */
  function ParseDashboardTime(r: string): Option<(nat, nat)> {
    var k := IndexOf(r, 'm');
    if k + 3 <= |r| && r[k + 1] == ' ' && r[|r| - 1] == 's'
      && AllDigits(r[..k]) && AllDigits(r[k + 2..|r| - 1])
    then Some((ParseNat(r[..k]), ParseNat(r[k + 2..|r| - 1])))
    else None
  }

  /** Any `digitsm digitss` string reads back field by field. */
  lemma DashboardFields(mins: string, secs: string)
    requires AllDigits(mins) && AllDigits(secs) && |mins| >= 1 && |secs| >= 1
    ensures var r := mins + "m " + secs + "s";
      && IndexOf(r, 'm') == |mins| && r[..|mins|] == mins && r[|mins| + 2..|r| - 1] == secs
      && ParseDashboardTime(r) == Some((ParseNat(mins), ParseNat(secs)))
  {
    var r := mins + "m " + secs + "s";
    assert r[|mins|] == 'm';
    assert forall i :: 0 <= i < |mins| ==> r[i] == mins[i] && r[i] != 'm';
    assert IndexOf(r, 'm') == |mins|;
    assert r[..|mins|] == mins;
    assert r[|mins| + 2..|r| - 1] == secs;
  }

  /** `Xm Ys`, neither field padded: both fields are written without
      leading zeros. It reads back as minutes and seconds with seconds below
      60 and minutes * 60 + seconds equal to the input. */
  function DashboardTime(seconds: nat): (r: string)
    ensures var k := IndexOf(r, 'm');
      k + 3 <= |r| && Canonical(r[..k]) && Canonical(r[k + 2..|r| - 1])
    ensures ParseDashboardTime(r) == Some((seconds / 60, seconds % 60))
    ensures var t := ParseDashboardTime(r).value; t.1 < 60 && t.0 * 60 + t.1 == seconds
  {
    var mins := NatToString(seconds / 60);
    var secs := NatToString(seconds % 60);
    MinutesAndSeconds(seconds);
    ParseNatToString(seconds / 60);
    ParseNatToString(seconds % 60);
    DashboardFields(mins, secs);
    mins + "m " + secs + "s"
  }
}

=== FILE: deck.dfy ===
/** The deck builder: pairs are laid out in order, Fisher–Yates shuffled,
    and then every card's id is reset to its position. */
module Deck {
  import opened Levels

  /** One card. `pairId` groups the two cards of a pair; `id` is meant to
      be the card's position in the deck. */
  datatype Card = Card(id: int, icon: string, isFlipped: bool, isMatched: bool, pairId: int)

  /** The icon of pair `pair`, cycling through the level's icon list. */
  function IconFor(config: LevelConfig, pair: nat): string
    requires |config.icons| > 0
  {
    config.icons[pair % |config.icons|]
  }

  /** The pair ids of a row of cards, in order. */
  function PairIds(cards: seq<Card>): (ids: seq<int>)
    ensures |ids| == |cards|
    ensures forall i :: 0 <= i < |cards| ==> ids[i] == cards[i].pairId
  {
    seq(|cards|, i requires 0 <= i < |cards| => cards[i].pairId)
  }

  /** The first `n` pairs as the building loop pushes them: cards `2p` and
      `2p + 1` form pair `p`, face down and unmatched. */
  function FreshPairs(config: LevelConfig, n: nat): (cards: seq<Card>)
    requires |config.icons| > 0
    ensures |cards| == 2 * n
    ensures forall k :: 0 <= k < |cards| ==>
      cards[k] == Card(k, IconFor(config, k / 2), false, false, k / 2)
  {
    if n == 0 then []
    else
      var p := n - 1;
      assert (2 * p) / 2 == p && (2 * p + 1) / 2 == p;
      FreshPairs(config, p)
        + [Card(2 * p, IconFor(config, p), false, false, p),
           Card(2 * p + 1, IconFor(config, p), false, false, p)]
  }

  /** The pair-id column of the first `n` pairs: `0, 0, 1, 1, ...`. */
  function Doubled(n: nat): (ids: seq<int>)
    ensures |ids| == 2 * n
  {
    if n == 0 then [] else Doubled(n - 1) + [n - 1, n - 1]
  }

  lemma {:induction false} DoubledAt(n: nat)
    ensures forall k :: 0 <= k < 2 * n ==> Doubled(n)[k] == k / 2
  {
    if n > 0 {
      DoubledAt(n - 1);
      assert (2 * (n - 1)) / 2 == n - 1 && (2 * (n - 1) + 1) / 2 == n - 1;
    }
  }

  lemma {:induction false} DoubledCounts(n: nat)
    ensures forall p :: multiset(Doubled(n))[p] == (if 0 <= p < n then 2 else 0)
  {
    if n > 0 {
      var prev := Doubled(n - 1);
      DoubledCounts(n - 1);
      assert Doubled(n) == prev + [n - 1, n - 1];
      var m := multiset(prev) + multiset{n - 1, n - 1};
      assert multiset(Doubled(n)) == m;
      forall p ensures m[p] == (if 0 <= p < n then 2 else 0) {
        assert m[p] == multiset(prev)[p] + (if p == n - 1 then 2 else 0);
      }
    }
  }

  /** Among the first `n` pairs every pair id in `0..n-1` occurs exactly
      twice and no other id occurs. */
  lemma FreshPairCounts(config: LevelConfig, n: nat)
    requires |config.icons| > 0
    ensures forall p :: multiset(PairIds(FreshPairs(config, n)))[p] == (if 0 <= p < n then 2 else 0)
  {
    DoubledAt(n);
    assert PairIds(FreshPairs(config, n)) == Doubled(n);
    DoubledCounts(n);
  }

  /** The random draws of one shuffle: `draws[i]` is the index
      `Math.floor(Math.random() * (i + 1))` picks at step `i`. */
  predicate ValidDraws(draws: seq<nat>, n: nat) {
    |draws| == n && forall i :: 0 <= i < n ==> draws[i] <= i
  }

  /** Exchange the elements at `i` and `j`. */
  function Swap<T>(s: seq<T>, i: nat, j: nat): (r: seq<T>)
    requires i < |s| && j < |s|
    ensures |r| == |s| && multiset(r) == multiset(s)
    ensures r[i] == s[j] && r[j] == s[i]
    ensures forall k :: 0 <= k < |s| && k != i && k != j ==> r[k] == s[k]
  {
    s[i := s[j]][j := s[i]]
  }

  /** The Fisher–Yates loop over the first `n` positions: steps
      `n-1, n-2, ..., 1`, step `i` exchanging positions `i` and `draws[i]`.
      The whole shuffle is `Shuffle(s, draws, |s|)`. */
  function Shuffle<T>(s: seq<T>, draws: seq<nat>, n: nat): (r: seq<T>)
    requires n <= |s| && ValidDraws(draws, |s|)
    ensures |r| == |s| && multiset(r) == multiset(s)
    decreases n
  {
    if n <= 1 then s else Shuffle(Swap(s, n - 1, draws[n - 1]), draws, n - 1)
  }

  lemma PairIdsSwap(s: seq<Card>, i: nat, j: nat)
    requires i < |s| && j < |s|
    ensures PairIds(Swap(s, i, j)) == Swap(PairIds(s), i, j)
  {
  }

  lemma SwapKeepsPairCounts(s: seq<Card>, i: nat, j: nat)
    requires i < |s| && j < |s|
    ensures multiset(PairIds(Swap(s, i, j))) == multiset(PairIds(s))
  {
    PairIdsSwap(s, i, j);
  }

  /** Shuffling moves cards, so it moves their pair ids with them. */
  lemma {:induction false} ShufflePairIds(s: seq<Card>, draws: seq<nat>, n: nat)
    requires n <= |s| && ValidDraws(draws, |s|)
    ensures multiset(PairIds(Shuffle(s, draws, n))) == multiset(PairIds(s))
    decreases n
  {
    if n > 1 {
      var swapped := Swap(s, n - 1, draws[n - 1]);
      SwapKeepsPairCounts(s, n - 1, draws[n - 1]);
      ShufflePairIds(swapped, draws, n - 1);
      assert Shuffle(s, draws, n) == Shuffle(swapped, draws, n - 1);
    }
  }

  /** Reset every card's id to its position. */
  function Renumber(cards: seq<Card>): (r: seq<Card>)
    ensures |r| == |cards| && PairIds(r) == PairIds(cards)
    ensures forall i :: 0 <= i < |r| ==> r[i] == cards[i].(id := i)
  {
    seq(|cards|, i requires 0 <= i < |cards| => cards[i].(id := i))
  }

  /** Number of cards the deck builder deals for `level`. */
  function DeckSize(level: int): nat {
    2 * DeckConfig(level).pairCount
  }

  /** What a freshly dealt deck for `config` looks like: `2 * pairCount`
      face-down unmatched cards whose ids are their positions, each pair id
      in range occurring exactly twice and carrying its pair's icon. */
  predicate IsFreshDeck(cards: seq<Card>, config: LevelConfig)
    requires |config.icons| > 0
  {
    && |cards| == 2 * config.pairCount
    && (forall i :: 0 <= i < |cards| ==>
          && cards[i].id == i
          && !cards[i].isFlipped
          && !cards[i].isMatched
          && 0 <= cards[i].pairId < config.pairCount
          && cards[i].icon == IconFor(config, cards[i].pairId))
    && (forall p :: 0 <= p < config.pairCount ==> multiset(PairIds(cards))[p] == 2)
  }

  /** Deal the deck for `level`: unknown levels use the first catalogue row;
      the result is a renumbered permutation of the unshuffled pair list. */
  function InitializeCards(level: int, draws: seq<nat>): (cards: seq<Card>)
    requires ValidDraws(draws, DeckSize(level))
    ensures IsFreshDeck(cards, DeckConfig(level))
  {
    Deal(DeckConfig(level), draws)
  }

  /** Build, shuffle and renumber the pair list of `config`. */
  function Deal(config: LevelConfig, draws: seq<nat>): (cards: seq<Card>)
    requires |config.icons| > 0 && ValidDraws(draws, 2 * config.pairCount)
    ensures IsFreshDeck(cards, config)
  {
    var pairs := FreshPairs(config, config.pairCount);
    var shuffled := Shuffle(pairs, draws, |pairs|);
    DealIsFresh(config, draws);
    Renumber(shuffled)
  }

  lemma DealIsFresh(config: LevelConfig, draws: seq<nat>)
    requires |config.icons| > 0 && ValidDraws(draws, 2 * config.pairCount)
    ensures var pairs := FreshPairs(config, config.pairCount);
      IsFreshDeck(Renumber(Shuffle(pairs, draws, |pairs|)), config)
  {
    var pairs := FreshPairs(config, config.pairCount);
    RenumberedPermutationIsFresh(config, Shuffle(pairs, draws, |pairs|));
  }

  /** Dropping the element at `j` removes one copy of it. */
  lemma RemoveAt<T>(b: seq<T>, j: nat)
    requires j < |b|
    ensures multiset(b[..j] + b[j + 1..]) == multiset(b) - multiset{b[j]}
  {
    assert b == b[..j] + [b[j]] + b[j + 1..];
  }

  /** Two multisets that both hold `p`, and that leave the same `rest`
      once one copy of `p` is taken from each, are equal. */
  lemma Reinsert(m1: multiset<int>, m2: multiset<int>, p: int, rest: multiset<int>)
    requires p in m1 && p in m2 && m1 - multiset{p} == rest && m2 - multiset{p} == rest
    ensures m1 == m2
  {
    assert m1 == (m1 - multiset{p}) + multiset{p};
    assert m2 == (m2 - multiset{p}) + multiset{p};
  }

  /** The pair ids of `b` with the card at `j` dropped. */
  lemma PairIdsRemoveAt(b: seq<Card>, j: nat)
    requires j < |b|
    ensures PairIds(b[..j] + b[j + 1..]) == PairIds(b)[..j] + PairIds(b)[j + 1..]
  {
  }

  /** Dropping the card at `j` drops one copy of its pair id. */
  lemma DropPairId(b: seq<Card>, j: nat, p: int)
    requires j < |b| && b[j].pairId == p
    ensures p in multiset(PairIds(b))
    ensures multiset(PairIds(b)) - multiset{p} == multiset(PairIds(b[..j] + b[j + 1..]))
  {
    var ib := PairIds(b);
    PairIdsRemoveAt(b, j);
    RemoveAt(ib, j);
    assert ib[j] == b[j].pairId;
  }

  /** Dropping the first card drops one copy of its pair id. */
  lemma DropFirstPairId(a: seq<Card>, p: int)
    requires |a| > 0 && a[0].pairId == p
    ensures multiset(a[1..]) == multiset(a) - multiset{a[0]}
    ensures p in multiset(PairIds(a))
    ensures multiset(PairIds(a)) - multiset{p} == multiset(PairIds(a[1..]))
  {
    assert a == [a[0]] + a[1..];
    assert PairIds(a) == [p] + PairIds(a[1..]);
  }

  /** Permuting cards permutes their pair ids. */
  lemma {:induction false} PermutedPairIds(a: seq<Card>, b: seq<Card>)
    requires multiset(a) == multiset(b)
    ensures multiset(PairIds(a)) == multiset(PairIds(b))
    decreases |a|
  {
    if |a| == 0 {
      assert |multiset(b)| == 0;
    } else {
      var x := a[0];
      assert x in multiset(b);
      var j :| 0 <= j < |b| && b[j] == x;
      var p := x.pairId;
      DropFirstPairId(a, p);
      RemoveAt(b, j);
      PermutedPairIds(a[1..], b[..j] + b[j + 1..]);
      DropPairId(b, j, p);
      Reinsert(multiset(PairIds(a)), multiset(PairIds(b)), p, multiset(PairIds(b[..j] + b[j + 1..])));
    }
  }

  /** Any renumbered permutation of the pair list is a fresh deck. */
  lemma RenumberedPermutationIsFresh(config: LevelConfig, shuffled: seq<Card>)
    requires |config.icons| > 0
    requires multiset(shuffled) == multiset(FreshPairs(config, config.pairCount))
    ensures IsFreshDeck(Renumber(shuffled), config)
  {
    var pairs := FreshPairs(config, config.pairCount);
    FreshPairCounts(config, config.pairCount);
    PermutedPairIds(shuffled, pairs);
    assert |shuffled| == |pairs| by {
      assert |multiset(shuffled)| == |multiset(pairs)|;
    }
    forall i | 0 <= i < |shuffled|
      ensures !shuffled[i].isFlipped && !shuffled[i].isMatched
      ensures 0 <= shuffled[i].pairId < config.pairCount
      ensures shuffled[i].icon == IconFor(config, shuffled[i].pairId)
    {
      assert shuffled[i] in multiset(shuffled);
      assert shuffled[i] in pairs;
      var k :| 0 <= k < |pairs| && pairs[k] == shuffled[i];
    }
  }
}

=== FILE: game.dfy ===
/** The game reducer: starting a level, the card-click transition with its
    match/mismatch scoring, the delayed mismatch flip-back, pause/resume,
    the timer tick and the progress commit. React scheduling is replaced by
    explicit operations that the environment invokes. */
module GameLogic {
  import opened Wrappers
  import opened Levels
  import opened Deck

  datatype Status = Idle | Playing | Paused | Completed

  /** One game session. `flippedCards` holds card ids (positions) of the
      current unresolved selection; `matchedPairs` the pair ids resolved. */
  datatype GameState = GameState(
    currentLevel: int,
    score: int,
    moves: nat,
    timeElapsed: nat,
    cards: seq<Card>,
    flippedCards: seq<int>,
    matchedPairs: seq<int>,
    status: Status)

  /** The state before any level was started. */
  const InitialState: GameState := GameState(1, 0, 0, 0, [], [], [], Idle)

  /** Start `level`: a fresh deck, zeroed counters, `playing`. The level
      number is stored as given, even where the deck fell back to level 1. */
  function StartGame(level: int, draws: seq<nat>): (s: GameState)
    requires ValidDraws(draws, DeckSize(level))
    ensures s.status == Playing && s.currentLevel == level
    ensures s.score == 0 && s.moves == 0 && s.timeElapsed == 0
    ensures s.flippedCards == [] && s.matchedPairs == []
    ensures IsFreshDeck(s.cards, DeckConfig(level))
  {
    GameState(level, 0, 0, 0, InitializeCards(level, draws), [], [], Playing)
  }

  /** Turn face up every card whose id is `id`. */
  function FlipUp(cards: seq<Card>, id: int): (r: seq<Card>)
    ensures |r| == |cards| && PairIds(r) == PairIds(cards)
    ensures forall i :: 0 <= i < |cards| ==>
      r[i] == (if cards[i].id == id then cards[i].(isFlipped := true) else cards[i])
  {
    seq(|cards|, i requires 0 <= i < |cards| =>
      if cards[i].id == id then cards[i].(isFlipped := true) else cards[i])
  }

  /** Mark matched every card whose id is `a` or `b`. */
  function MarkMatched(cards: seq<Card>, a: int, b: int): (r: seq<Card>)
    ensures |r| == |cards| && PairIds(r) == PairIds(cards)
    ensures forall i :: 0 <= i < |cards| ==>
      r[i] == (if cards[i].id == a || cards[i].id == b then cards[i].(isMatched := true) else cards[i])
  {
    seq(|cards|, i requires 0 <= i < |cards| =>
      if cards[i].id == a || cards[i].id == b then cards[i].(isMatched := true) else cards[i])
  }

  /** Turn face down every card whose id is `a` or `b`. */
  function FlipDown(cards: seq<Card>, a: int, b: int): (r: seq<Card>)
    ensures |r| == |cards| && PairIds(r) == PairIds(cards)
    ensures forall i :: 0 <= i < |cards| ==>
      r[i] == (if cards[i].id == a || cards[i].id == b then cards[i].(isFlipped := false) else cards[i])
  {
    seq(|cards|, i requires 0 <= i < |cards| =>
      if cards[i].id == a || cards[i].id == b then cards[i].(isFlipped := false) else cards[i])
  }

  function Max(x: int, y: int): int {
    if x >= y then x else y
  }

  /** Points for one match: a base of 100, a time bonus that runs out after
      50 seconds and a move bonus that runs out after 50 moves, all times
      the level number. */
  function MatchScore(timeElapsed: nat, moves: nat, level: int): (points: int)
    ensures level >= 1 ==> 100 * level <= points <= 250 * level
    ensures level <= 0 ==> points <= 0
  {
    var base := 100;
    var timeBonus := Max(0, 50 - timeElapsed);
    var moveBonus := Max(0, 100 - moves * 2);
    var perLevel := base + timeBonus + moveBonus;
    assert 100 <= perLevel <= 250;
    if level >= 1 then
      MulMonotone(100, perLevel, level);
      MulMonotone(perLevel, 250, level);
      perLevel * level
    else
      MulMonotone(level, 0, perLevel);
      perLevel * level
  }

  lemma {:induction false} MulMonotone(a: int, b: int, c: nat)
    requires a <= b
    ensures a * c <= b * c
  {
    if c > 0 {
      MulMonotone(a, b, c - 1);
      assert a * c == a * (c - 1) + a && b * c == b * (c - 1) + b;
    }
  }

  /** The click guard: the click is acted on exactly when this holds. */
  predicate Accepts(s: GameState, cardId: int) {
    && s.status == Playing
    && 0 <= cardId < |s.cards|
    && !s.cards[cardId].isFlipped
    && !s.cards[cardId].isMatched
    && |s.flippedCards| < 2
  }

  /** The click reducer. The clicked card is looked up by index, so an
      index outside the deck throws instead of being ignored. */
  function Click(s: GameState, cardId: int): (r: Result<GameState>)
    ensures s.status != Playing ==> r == Ok(s)
    ensures s.status == Playing && !(0 <= cardId < |s.cards|) ==> r == Err(CardUndefined(cardId))
    ensures s.status == Playing && 0 <= cardId < |s.cards| && !Accepts(s, cardId) ==> r == Ok(s)
    ensures Accepts(s, cardId) && r.Ok? ==>
      && r.value.moves == s.moves + 1
      && r.value.currentLevel == s.currentLevel
      && r.value.timeElapsed == s.timeElapsed
      && PairIds(r.value.cards) == PairIds(s.cards)
      && (r.value.flippedCards == [] || r.value.flippedCards == s.flippedCards + [cardId])
    ensures Accepts(s, cardId) && |s.flippedCards| == 0 ==> r.Ok?
  {
    if s.status != Playing then Ok(s)
    else if !(0 <= cardId < |s.cards|) then Err(CardUndefined(cardId))
    else
      var card := s.cards[cardId];
      if card.isFlipped || card.isMatched || |s.flippedCards| >= 2 then Ok(s)
      else
        var newFlipped := s.flippedCards + [cardId];
        var newCards := FlipUp(s.cards, cardId);
        var newMoves := s.moves + 1;
        if |newFlipped| == 2 then
          var first := newFlipped[0];
          var second := newFlipped[1];
          if !(0 <= first < |newCards|) then Err(CardUndefined(first))
          else if newCards[first].pairId == newCards[second].pairId then
            var newMatched := s.matchedPairs + [newCards[first].pairId];
            var complete := 2 * |newMatched| == |s.cards|;
            Ok(s.(
              cards := MarkMatched(newCards, first, second),
              flippedCards := [],
              matchedPairs := newMatched,
              moves := newMoves,
              score := s.score + MatchScore(s.timeElapsed, newMoves, s.currentLevel),
              status := if complete then Completed else Playing))
          else
            Ok(s.(cards := newCards, flippedCards := newFlipped, moves := newMoves))
        else
          Ok(s.(cards := newCards, flippedCards := newFlipped, moves := newMoves))
  }

  /** The delayed mismatch flip-back as written: it turns down the cards
      with ids `a` and `b` and empties the selection of whatever state is
      current when it fires, with no check that this is still the session
      (or the selection) it was scheduled for. */
  function FlipBack(s: GameState, a: int, b: int): (r: GameState)
    ensures r.flippedCards == []
    ensures r.cards == FlipDown(s.cards, a, b)
    ensures r.(cards := s.cards, flippedCards := s.flippedCards) == s
  {
    s.(cards := FlipDown(s.cards, a, b), flippedCards := [])
  }

  /** The flip-back with the guard it evidently needs: it acts only while
      the selection is still exactly the mismatched pair `[a, b]`. */
  function GuardedFlipBack(s: GameState, a: int, b: int): (r: GameState)
    ensures s.flippedCards == [a, b] ==> r == FlipBack(s, a, b)
    ensures s.flippedCards != [a, b] ==> r == s
  {
    if s.flippedCards == [a, b] then FlipBack(s, a, b) else s
  }

  /** Pausing works from any status and touches nothing but the status. */
  function Pause(s: GameState): (r: GameState)
    ensures r.status == Paused
    ensures r.(status := s.status) == s
  {
    s.(status := Paused)
  }

  /** Resuming works from any status and touches nothing but the status. */
  function Resume(s: GameState): (r: GameState)
    ensures r.status == Playing
    ensures r.(status := s.status) == s
  {
    s.(status := Playing)
  }

  /** One tick of the one-second interval, which runs only while playing. */
  function Tick(s: GameState): (r: GameState)
    ensures r.timeElapsed == s.timeElapsed + (if s.status == Playing then 1 else 0)
    ensures r.(timeElapsed := s.timeElapsed) == s
  {
    if s.status == Playing then s.(timeElapsed := s.timeElapsed + 1) else s
  }

  /** Durable summary across sessions. */
  datatype PlayerProgress = PlayerProgress(
    highestLevel: int,
    bestScore: int,
    totalGamesPlayed: nat,
    averageTime: nat,
    hasPlayed: bool)

  const InitialProgress: PlayerProgress := PlayerProgress(1, 0, 0, 0, false)

  /** `Math.round(a / b)` for a positive divisor: the nearest integer,
      halves rounded up. */
  function RoundDiv(a: nat, b: int): (q: nat)
    requires b > 0
    ensures 2 * q * b - b <= 2 * a < 2 * q * b + b
  {
    var q := (2 * a + b) / (2 * b);
    assert 2 * b * q <= 2 * a + b < 2 * b * q + 2 * b;
    q
  }

  /** Fold a completed session into the player's progress; any other
      status leaves the progress as it is. */
  function CompleteGame(p: PlayerProgress, s: GameState): (r: PlayerProgress)
    ensures s.status != Completed ==> r == p
    ensures s.status == Completed ==>
      && r.hasPlayed
      && r.totalGamesPlayed == p.totalGamesPlayed + 1
      && r.bestScore >= p.bestScore && r.bestScore >= s.score
      && (r.bestScore == p.bestScore || r.bestScore == s.score)
      && r.highestLevel >= p.highestLevel && r.highestLevel >= s.currentLevel
      && (r.highestLevel == p.highestLevel || r.highestLevel == s.currentLevel)
    ensures s.status == Completed && p.totalGamesPlayed == 0 ==> r.averageTime == s.timeElapsed
    ensures s.status == Completed && p.totalGamesPlayed > 0 ==>
      var n := p.totalGamesPlayed;
      var total := p.averageTime * n + s.timeElapsed;
      2 * r.averageTime * (n + 1) - (n + 1) <= 2 * total < 2 * r.averageTime * (n + 1) + (n + 1)
  {
    if s.status != Completed then p
    else
      var n := p.totalGamesPlayed;
      p.(
        hasPlayed := true,
        totalGamesPlayed := n + 1,
        bestScore := Max(p.bestScore, s.score),
        highestLevel := Max(p.highestLevel, s.currentLevel),
        averageTime := if n > 0 then RoundDiv(p.averageTime * n + s.timeElapsed, n + 1) else s.timeElapsed)
  }
}

=== FILE: invariants.dfy ===
/** Invariants of the game reducer and their preservation by every
    transition: the selection holds at most two face-up unmatched cards,
    matched status agrees with the matched-pairs list, a card is face up
    exactly when it is matched or selected, and a session is complete
    exactly when every pair is matched. */
module GameInvariants {
  import opened Wrappers
  import opened Deck
  import opened GameLogic

  /** The deck builder's renumbering: the card at position `i` has id `i`,
      which is what lets the reducer look cards up by index. */
  predicate IdsArePositions(cards: seq<Card>) {
    forall i :: 0 <= i < |cards| ==> cards[i].id == i
  }

  /** Every pair id lies in `0 .. |cards|/2 - 1` and occurs exactly twice. */
  predicate Paired(cards: seq<Card>) {
    && |cards| % 2 == 0
    && (forall i :: 0 <= i < |cards| ==> 0 <= cards[i].pairId < |cards| / 2)
    && (forall p :: 0 <= p < |cards| / 2 ==> multiset(PairIds(cards))[p] == 2)
  }

  predicate Distinct(xs: seq<int>) {
    forall i, j :: 0 <= i < j < |xs| ==> xs[i] != xs[j]
  }

  predicate AllMatched(cards: seq<Card>) {
    forall i :: 0 <= i < |cards| ==> cards[i].isMatched
  }

  /** The selection: at most two distinct in-range ids of face-up,
      unmatched cards. */
  predicate SelectionWellFormed(s: GameState) {
    && |s.flippedCards| <= 2
    && Distinct(s.flippedCards)
    && (forall k :: 0 <= k < |s.flippedCards| ==>
          && 0 <= s.flippedCards[k] < |s.cards|
          && s.cards[s.flippedCards[k]].isFlipped
          && !s.cards[s.flippedCards[k]].isMatched)
  }

  /** A card is matched exactly when its pair id is in the matched list,
      which holds in-range pair ids without duplicates. */
  predicate MatchedAgree(cards: seq<Card>, matched: seq<int>) {
    && (forall i :: 0 <= i < |cards| ==> (cards[i].isMatched <==> cards[i].pairId in matched))
    && Distinct(matched)
    && (forall k :: 0 <= k < |matched| ==> 0 <= matched[k] < |cards| / 2)
  }

  /** Everything but face-up bookkeeping; this part survives even a stale
      flip-back. */
  predicate Core(s: GameState) {
    && IdsArePositions(s.cards)
    && Paired(s.cards)
    && SelectionWellFormed(s)
    && MatchedAgree(s.cards, s.matchedPairs)
    && (s.status == Completed ==> AllMatched(s.cards))
  }

  /** A card is face up exactly when it is matched or selected. */
  predicate FaceUpAccounted(s: GameState) {
    forall i :: 0 <= i < |s.cards| ==> (s.cards[i].isFlipped <==> s.cards[i].isMatched || i in s.flippedCards)
  }

  predicate Inv(s: GameState) {
    Core(s) && FaceUpAccounted(s)
  }

  // ---------------------------------------------------------------------
  // Counting

  function Elems(xs: seq<int>): set<int> {
    set x | x in xs
  }

  function Range(n: nat): (r: set<int>)
    ensures forall x :: x in r <==> 0 <= x < n
  {
    if n == 0 then {} else Range(n - 1) + {n - 1}
  }

  lemma {:induction false} DistinctElems(xs: seq<int>)
    requires Distinct(xs)
    ensures |Elems(xs)| == |xs|
  {
    if |xs| > 0 {
      var init := xs[..|xs| - 1];
      var last := xs[|xs| - 1];
      assert Distinct(init);
      DistinctElems(init);
      assert Elems(xs) == Elems(init) + {last};
      assert last !in Elems(init);
    }
  }

  lemma {:induction false} RangeSize(n: nat)
    ensures |Range(n)| == n
  {
    if n > 0 {
      var r := Range(n - 1);
      RangeSize(n - 1);
      assert Range(n) == r + {n - 1};
      assert n - 1 !in r;
      assert |r + {n - 1}| == |r| + 1;
    }
  }

  lemma SubsetSize(a: set<int>, b: set<int>)
    requires a <= b
    ensures |a| <= |b|
    ensures |a| == |b| ==> a == b
  {
    assert b == a + (b - a);
    assert |b| == |a| + |b - a|;
    if |a| == |b| {
      assert |b - a| == 0;
      assert b - a == {};
    }
  }

  lemma ThreeSorted(xs: seq<int>, i: nat, j: nat, k: nat)
    requires i < j < k < |xs| && xs[i] == xs[j] == xs[k]
    ensures multiset(xs)[xs[i]] >= 3
  {
    var v := xs[i];
    assert xs == xs[..i] + [v] + xs[i + 1..j] + [v] + xs[j + 1..k] + [v] + xs[k + 1..];
  }

  /** A value at three distinct positions occurs at least three times. */
  lemma ThreeOccurrences(xs: seq<int>, i: nat, j: nat, k: nat)
    requires i < |xs| && j < |xs| && k < |xs| && i != j && j != k && i != k
    requires xs[i] == xs[j] == xs[k]
    ensures multiset(xs)[xs[i]] >= 3
  {
    if i < j < k { ThreeSorted(xs, i, j, k); }
    else if i < k < j { ThreeSorted(xs, i, k, j); }
    else if j < i < k { ThreeSorted(xs, j, i, k); }
    else if j < k < i { ThreeSorted(xs, j, k, i); }
    else if k < i < j { ThreeSorted(xs, k, i, j); }
    else { ThreeSorted(xs, k, j, i); }
  }

  /** In a paired deck two distinct cards with the same pair id are the
      only cards carrying it. */
  lemma PairPartners(cards: seq<Card>, i: nat, j: nat, k: nat)
    requires Paired(cards)
    requires i < |cards| && j < |cards| && k < |cards| && i != j
    requires cards[i].pairId == cards[j].pairId == cards[k].pairId
    ensures k == i || k == j
  {
    if k != i && k != j {
      ThreeOccurrences(PairIds(cards), i, j, k);
      assert false;
    }
  }

  /** Every pair id in range is carried by some card. */
  lemma PairPresent(cards: seq<Card>, p: int) returns (i: nat)
    requires Paired(cards) && 0 <= p < |cards| / 2
    ensures i < |cards| && cards[i].pairId == p
  {
    var ids := PairIds(cards);
    assert multiset(ids)[p] == 2;
    assert p in multiset(ids);
    assert p in ids;
    var k :| 0 <= k < |ids| && ids[k] == p;
    i := k;
  }

  /** With the matched list in agreement, the list is full (half the deck
      long) exactly when every card is matched, and it is never longer. */
  lemma {:induction false} FullIffAllMatched(cards: seq<Card>, matched: seq<int>)
    requires Paired(cards) && MatchedAgree(cards, matched)
    ensures |matched| <= |cards| / 2
    ensures 2 * |matched| == |cards| <==> AllMatched(cards)
  {
    var n := |cards| / 2;
    var m := Elems(matched);
    DistinctElems(matched);
    RangeSize(n);
    assert m <= Range(n);
    SubsetSize(m, Range(n));
    if AllMatched(cards) {
      forall p | p in Range(n) ensures p in m {
        var i := PairPresent(cards, p);
        assert cards[i].isMatched;
      }
      assert Range(n) <= m;
      assert m == Range(n);
      assert |matched| == n;
    }
    if 2 * |matched| == |cards| {
      assert m == Range(n);
      forall i | 0 <= i < |cards| ensures cards[i].isMatched {
        assert cards[i].pairId in Range(n);
      }
    }
  }

  // ---------------------------------------------------------------------
  // Starting a level

  lemma InitialStateInv()
    ensures Inv(InitialState)
  {
  }

  /** A freshly started level satisfies every invariant. */
  lemma StartGameInv(level: int, draws: seq<nat>)
    requires ValidDraws(draws, DeckSize(level))
    ensures Inv(StartGame(level, draws))
  {
    var s := StartGame(level, draws);
    assert |s.cards| / 2 == Levels.DeckConfig(level).pairCount;
  }

  // ---------------------------------------------------------------------
  // Clicks

  /** Under the core invariant a click inside the deck never throws, and a
      click outside it always does while playing. */
  lemma ClickThrowsOnlyOutsideDeck(s: GameState, cardId: int)
    requires Core(s)
    ensures Click(s, cardId).Err? <==> s.status == Playing && !(0 <= cardId < |s.cards|)
  {
  }

  /** First card of a selection: it is turned up and becomes the selection. */
  lemma ClickFirstCard(s: GameState, cardId: int)
    requires Core(s) && Accepts(s, cardId) && |s.flippedCards| == 0
    ensures Click(s, cardId) == Ok(s.(cards := FlipUp(s.cards, cardId), flippedCards := [cardId], moves := s.moves + 1))
  {
    assert s.flippedCards + [cardId] == [cardId];
  }

  /** Second card, same pair: both cards end up matched and face up, the
      selection empties, the pair id is recorded, the score rises by the
      match formula, and the session completes exactly when every card is
      matched. */
  lemma ClickMatch(s: GameState, cardId: int)
    requires Inv(s) && Accepts(s, cardId) && |s.flippedCards| == 1
    requires s.cards[s.flippedCards[0]].pairId == s.cards[cardId].pairId
    ensures Click(s, cardId).Ok?
    ensures var t := Click(s, cardId).value;
      var first := s.flippedCards[0];
      && t.cards[first].isMatched && t.cards[first].isFlipped
      && t.cards[cardId].isMatched && t.cards[cardId].isFlipped
      && (forall i :: 0 <= i < |s.cards| && i != first && i != cardId ==> t.cards[i] == s.cards[i])
      && t.flippedCards == []
      && t.matchedPairs == s.matchedPairs + [s.cards[cardId].pairId]
      && t.moves == s.moves + 1
      && t.score == s.score + MatchScore(s.timeElapsed, s.moves + 1, s.currentLevel)
      && (s.currentLevel >= 1 ==> t.score > s.score)
      && (t.status == Completed <==> AllMatched(t.cards))
      && (t.status == Completed || t.status == Playing)
  {
    var t := Click(s, cardId).value;
    ClickPreservesCore(s, cardId);
    FullIffAllMatched(t.cards, t.matchedPairs);
  }

  /** Second card, different pair: both stay face up as the selection,
      moves rise by one, and score, matched pairs and status are kept. */
  lemma ClickMismatch(s: GameState, cardId: int)
    requires Core(s) && Accepts(s, cardId) && |s.flippedCards| == 1
    requires s.cards[s.flippedCards[0]].pairId != s.cards[cardId].pairId
    ensures Click(s, cardId).Ok?
    ensures var t := Click(s, cardId).value;
      && t == s.(cards := FlipUp(s.cards, cardId), flippedCards := [s.flippedCards[0], cardId], moves := s.moves + 1)
      && t.cards[s.flippedCards[0]].isFlipped && t.cards[cardId].isFlipped
      && t.score == s.score && t.matchedPairs == s.matchedPairs && t.status == s.status
  {
  }

  /** Every click that does not throw keeps the core invariant. */
  lemma ClickPreservesCore(s: GameState, cardId: int)
    requires Core(s)
    ensures Click(s, cardId).Ok? ==> Core(Click(s, cardId).value)
  {
    if Accepts(s, cardId) && |s.flippedCards| == 1 {
      var first := s.flippedCards[0];
      if s.cards[first].pairId == s.cards[cardId].pairId {
        MatchKeepsCore(s, cardId);
      }
    }
  }

  lemma MatchKeepsCore(s: GameState, cardId: int)
    requires Core(s) && Accepts(s, cardId) && |s.flippedCards| == 1
    requires s.cards[s.flippedCards[0]].pairId == s.cards[cardId].pairId
    ensures Click(s, cardId).Ok? && Core(Click(s, cardId).value)
  {
    var first := s.flippedCards[0];
    var p := s.cards[cardId].pairId;
    var t := Click(s, cardId).value;
    assert first != cardId;
    assert t.cards == MarkMatched(FlipUp(s.cards, cardId), first, cardId);
    assert t.matchedPairs == s.matchedPairs + [p];
    assert p !in s.matchedPairs;
    forall i | 0 <= i < |t.cards|
      ensures t.cards[i].isMatched <==> t.cards[i].pairId in t.matchedPairs
    {
      if i != first && i != cardId && s.cards[i].pairId == p {
        PairPartners(s.cards, first, cardId, i);
      }
    }
    assert MatchedAgree(t.cards, t.matchedPairs);
    if t.status == Completed {
      FullIffAllMatched(t.cards, t.matchedPairs);
    }
  }

  /** Every click that does not throw keeps all the invariants. */
  lemma ClickPreservesInv(s: GameState, cardId: int)
    requires Inv(s)
    ensures Click(s, cardId).Ok? ==> Inv(Click(s, cardId).value)
  {
    ClickPreservesCore(s, cardId);
    if Accepts(s, cardId) && |s.flippedCards| == 1 {
      var first := s.flippedCards[0];
      var t := Click(s, cardId).value;
      if s.cards[first].pairId == s.cards[cardId].pairId {
        assert t.cards == MarkMatched(FlipUp(s.cards, cardId), first, cardId);
      } else {
        assert t.flippedCards == [first, cardId];
      }
    }
  }

  /** Double tap: a second click on the card just turned up changes
      nothing, in particular not the move count. */
  lemma DoubleTapIgnored(s: GameState, cardId: int)
    requires Inv(s) && Accepts(s, cardId)
    ensures Click(s, cardId).Ok?
    ensures var t := Click(s, cardId).value; Click(t, cardId) == Ok(t)
  {
    if |s.flippedCards| == 0 {
      ClickFirstCard(s, cardId);
    } else if s.cards[s.flippedCards[0]].pairId == s.cards[cardId].pairId {
      ClickMatch(s, cardId);
    } else {
      ClickMismatch(s, cardId);
    }
  }

  // ---------------------------------------------------------------------
  // Flip-back, pause, resume, tick

  /** Any flip-back, stale or not, keeps the core invariant. */
  lemma FlipBackPreservesCore(s: GameState, a: int, b: int)
    requires Core(s)
    ensures Core(FlipBack(s, a, b))
  {
  }

  /** The guarded flip-back keeps every invariant whenever it fires. */
  lemma GuardedFlipBackPreservesInv(s: GameState, a: int, b: int)
    requires Inv(s)
    ensures Inv(GuardedFlipBack(s, a, b))
  {
    if s.flippedCards == [a, b] {
      var t := FlipBack(s, a, b);
      forall i | 0 <= i < |t.cards|
        ensures t.cards[i].isFlipped <==> t.cards[i].isMatched || i in t.flippedCards
      {
        assert i in s.flippedCards <==> i == a || i == b;
      }
    }
  }

  /** A mismatch followed by its flip-back, with no tick in between, returns
      the state before the two clicks except for two more moves. */
  lemma MismatchThenFlipBack(s: GameState, a: int, b: int)
    requires Inv(s) && |s.flippedCards| == 0
    requires Accepts(s, a)
    requires Click(s, a).Ok? && Accepts(Click(s, a).value, b)
    requires s.cards[a].pairId != s.cards[b].pairId
    ensures Click(Click(s, a).value, b).Ok?
    ensures var t := Click(Click(s, a).value, b).value;
      && t.flippedCards == [a, b]
      && GuardedFlipBack(t, a, b) == FlipBack(t, a, b)
      && FlipBack(t, a, b) == s.(moves := s.moves + 2)
      && Inv(FlipBack(t, a, b))
  {
    var u := Click(s, a).value;
    ClickFirstCard(s, a);
    ClickPreservesInv(s, a);
    ClickMismatch(u, b);
    var t := Click(u, b).value;
    ClickPreservesInv(u, b);
    GuardedFlipBackPreservesInv(t, a, b);
    var back := FlipBack(t, a, b);
    assert back.cards == s.cards;
  }

  lemma PausePreservesInv(s: GameState)
    requires Inv(s)
    ensures Inv(Pause(s)) && Inv(Resume(s)) && Inv(Tick(s))
  {
  }

  // ---------------------------------------------------------------------
  // The stale flip-back

  /** Card `x` is face up and unmatched but not selected: a click on it is
      refused because it is face up, and only a flip-back naming it could
      turn it down again. */
  predicate Stranded(s: GameState, x: int) {
    && 0 <= x < |s.cards|
    && s.cards[x].isFlipped
    && !s.cards[x].isMatched
    && x !in s.flippedCards
  }

  /** A flip-back left over from an earlier mismatch that fires after a new
      selection `[x]` was started on other cards strands `x`. */
  lemma StaleFlipBackStrandsCard(s: GameState, a: int, b: int)
    requires Inv(s) && |s.flippedCards| == 1
    requires s.flippedCards[0] != a && s.flippedCards[0] != b
    ensures Core(FlipBack(s, a, b))
    ensures Stranded(FlipBack(s, a, b), s.flippedCards[0])
    ensures !Inv(FlipBack(s, a, b))
  {
    var x := s.flippedCards[0];
    var t := FlipBack(s, a, b);
    assert t.cards[x] == s.cards[x];
    assert !(t.cards[x].isFlipped <==> t.cards[x].isMatched || x in t.flippedCards);
  }

  /** A stranded card stays stranded under every click, so the session can
      never complete. */
  lemma StrandedIsForever(s: GameState, x: int, cardId: int)
    requires Core(s) && Stranded(s, x)
    ensures Click(s, cardId).Ok? ==>
      var t := Click(s, cardId).value;
      Core(t) && Stranded(t, x) && t.status != Completed
  {
    ClickPreservesCore(s, cardId);
    if Click(s, cardId).Ok? && Accepts(s, cardId) && |s.flippedCards| == 1 {
      var first := s.flippedCards[0];
      var t := Click(s, cardId).value;
      if s.cards[first].pairId == s.cards[cardId].pairId {
        assert t.cards == MarkMatched(FlipUp(s.cards, cardId), first, cardId);
      }
    }
  }
}

=== FILE: levels.dfy ===
/** The static level catalogue of the memory game and its two lookups. */
module Levels {

  /** One row of the catalogue: grid shape, number of pairs, icon names. */
  datatype LevelConfig = LevelConfig(
    level: int,
    gridRows: nat,
    gridCols: nat,
    pairCount: nat,
    icons: seq<string>)

  const Level1: LevelConfig := LevelConfig(1, 3, 4, 6,
    ["Heart", "Star", "Circle", "Square", "Triangle", "Diamond"])
  const Level2: LevelConfig := LevelConfig(2, 4, 4, 8,
    ["Heart", "Star", "Circle", "Square", "Triangle", "Diamond", "Hexagon", "Pentagon"])
  const Level3: LevelConfig := LevelConfig(3, 4, 6, 12,
    ["Heart", "Star", "Circle", "Square", "Triangle", "Diamond", "Hexagon", "Pentagon",
     "Octagon", "Plus", "Minus", "X"])
  const Level4: LevelConfig := LevelConfig(4, 5, 6, 15,
    ["Heart", "Star", "Circle", "Square", "Triangle", "Diamond", "Hexagon", "Pentagon",
     "Octagon", "Plus", "Minus", "X", "Sun", "Moon", "Cloud"])

  /** The catalogue, indexed by level number minus one. */
  const Catalogue: seq<LevelConfig> := [Level1, Level2, Level3, Level4]

  /** A catalogue row is self-consistent: its grid holds exactly its cards,
      and every pair has an icon of its own. */
  predicate WellShaped(c: LevelConfig) {
    && c.gridRows * c.gridCols == 2 * c.pairCount
    && |c.icons| == c.pairCount
    && c.pairCount > 0
  }

  predicate InCatalogue(level: int) {
    1 <= level <= |Catalogue|
  }

  /** Every row is well shaped and sits at the index its level number names. */
  lemma CatalogueWellShaped()
    ensures |Catalogue| == 4
    ensures forall k :: 0 <= k < |Catalogue| ==> WellShaped(Catalogue[k]) && Catalogue[k].level == k + 1
  {
  }

  /** The lookup the screen uses: an unknown level number reads past the
      table and falls back to the LAST row. */
  function GetLevelConfig(level: int): (c: LevelConfig)
    ensures c in Catalogue && WellShaped(c)
    ensures c.level == (if InCatalogue(level) then level else |Catalogue|)
  {
    if InCatalogue(level) then Catalogue[level - 1] else Catalogue[|Catalogue| - 1]
  }

  /** The lookup the deck builder uses: an unknown level number falls back
      to the FIRST row. */
  function DeckConfig(level: int): (c: LevelConfig)
    ensures c in Catalogue && WellShaped(c)
    ensures c.level == (if InCatalogue(level) then level else 1)
  {
    if InCatalogue(level) then Catalogue[level - 1] else Catalogue[0]
  }

  /** Inside the catalogue both lookups agree; outside it they disagree,
      so a level beyond the table is sized by level 1 but laid out by
      level 4. */
  lemma LookupsAgreeExactlyInCatalogue(level: int)
    ensures InCatalogue(level) ==> DeckConfig(level) == GetLevelConfig(level)
    ensures !InCatalogue(level) ==> DeckConfig(level) == Level1 && GetLevelConfig(level) == Level4
  {
  }

  /** The deck the builder deals for a level fills whole rows of the grid
      the screen lays it out on, inside the catalogue and outside it. */
  lemma DeckFillsGrid(level: int)
    ensures (2 * DeckConfig(level).pairCount) % GetLevelConfig(level).gridCols == 0
    ensures !InCatalogue(level) ==> 2 * DeckConfig(level).pairCount == 12 && GetLevelConfig(level).gridCols == 6
  {
    if level == 1 {
      assert 12 % 4 == 0;
    } else if level == 2 {
      assert 16 % 4 == 0;
    } else if level == 3 {
      assert 24 % 6 == 0;
    } else if level == 4 {
      assert 30 % 6 == 0;
    } else {
      assert 12 % 6 == 0;
    }
  }
}

=== FILE: sound.dfy ===
/** The audio settings state of the sound manager: mute flag, master volume
    clamped to [0, 1], per-sound effective volume, the play/resume gating
    by mute, and the settings record kept in local storage. Each Howler
    clip is reduced to a volume and a playing flag. */
module SoundManager {
  import opened Wrappers

  datatype SoundType = CardFlip | MatchSuccess | MatchFail | LevelComplete | ButtonClick | BackgroundMusic

  const AllSounds: set<SoundType> :=
    {CardFlip, MatchSuccess, MatchFail, LevelComplete, ButtonClick, BackgroundMusic}

  /** A clip as the manager sees it. */
  datatype Sound = Sound(volume: real, playing: bool)

  /** The calls the manager makes on a clip. */
  datatype HowlCall = HowlStop | HowlPlay | HowlPause | HowlVolume(level: real)

  function Apply(s: Sound, c: HowlCall): Sound {
    match c
    case HowlStop => s.(playing := false)
    case HowlPlay => s.(playing := true)
    case HowlPause => s.(playing := false)
    case HowlVolume(v) => s.(volume := v)
  }

  function ApplyAll(s: Sound, calls: seq<HowlCall>): Sound
    decreases |calls|
  {
    if |calls| == 0 then s else ApplyAll(Apply(s, calls[0]), calls[1..])
  }

  lemma ApplyOne(s: Sound, c: HowlCall)
    ensures ApplyAll(s, [c]) == Apply(s, c)
  {
    assert ApplyAll(s, [c]) == ApplyAll(Apply(s, c), []);
  }

  /** The settings object as read back from storage; a field the JSON
      object lacks (or holds `null` in) is `None`. */
  datatype StoredSettings = StoredSettings(isMuted: Option<bool>, masterVolume: Option<real>)

  /** Local storage under the settings key: a missing key reads back as
      `null`; a present entry that does not parse is `None`. */
  type Storage = map<string, Option<StoredSettings>>

  const SettingsKey: string := "lucide-memory-audio-settings"
  const DefaultMasterVolume: real := 0.7

  datatype Manager = Manager(
    isMuted: bool,
    masterVolume: real,
    sounds: map<SoundType, Sound>,
    storage: Storage)

  /** The fixed loudness of each clip before the master volume applies. */
  function BaseVolume(t: SoundType): (v: real)
    ensures 0.0 < v <= 0.8
  {
    match t
    case CardFlip => 0.3
    case MatchSuccess => 0.5
    case MatchFail => 0.4
    case LevelComplete => 0.8
    case ButtonClick => 0.3
    case BackgroundMusic => 0.2
  }

  /** `Math.max(0, Math.min(1, v))`. */
  function Clamp(v: real): (r: real)
    ensures 0.0 <= r <= 1.0
    ensures 0.0 <= v <= 1.0 ==> r == v
    ensures v < 0.0 ==> r == 0.0
    ensures v > 1.0 ==> r == 1.0
  {
    if v > 1.0 then 1.0 else if v < 0.0 then 0.0 else v
  }

  /** What a clip's volume should be under the current settings. */
  function EffectiveVolume(m: Manager, t: SoundType): real {
    if m.isMuted then 0.0 else BaseVolume(t) * m.masterVolume
  }

  predicate VolumesFollowSettings(m: Manager) {
    forall t :: t in m.sounds ==> m.sounds[t].volume == EffectiveVolume(m, t)
  }

  predicate MasterInRange(m: Manager) {
    0.0 <= m.masterVolume <= 1.0
  }

  /** The settings entry that `SaveSettings` writes for `m`. */
  function Record(m: Manager): StoredSettings {
    StoredSettings(Some(m.isMuted), Some(m.masterVolume))
  }

  predicate Persisted(m: Manager) {
    SettingsKey in m.storage && m.storage[SettingsKey] == Some(Record(m))
  }

  /** Reset every clip's volume from the settings; playback is untouched. */
  function UpdateAllVolumes(m: Manager): (r: Manager)
    ensures VolumesFollowSettings(r)
    ensures r.sounds.Keys == m.sounds.Keys
    ensures forall t :: t in m.sounds ==> r.sounds[t].playing == m.sounds[t].playing
    ensures r.(sounds := m.sounds) == m
  {
    m.(sounds := map t | t in m.sounds :: Apply(m.sounds[t], HowlVolume(EffectiveVolume(m, t))))
  }

  /** Write `{isMuted, masterVolume}` under the settings key. */
  function SaveSettings(m: Manager): (r: Manager)
    ensures Persisted(r)
    ensures r.(storage := m.storage) == m
    ensures forall k :: k in m.storage && k != SettingsKey ==> k in r.storage && r.storage[k] == m.storage[k]
  {
    m.(storage := m.storage[SettingsKey := Some(Record(m))])
  }

  /** `stored || false`. */
  function LoadMuted(stored: Option<bool>): (muted: bool)
    ensures muted <==> stored == Some(true)
  {
    stored.Some? && stored.value
  }

  /** `stored || 0.7`: zero is falsy, so a stored zero volume is replaced. */
  function LoadMasterVolume(stored: Option<real>): (v: real)
    ensures stored.Some? && stored.value != 0.0 ==> v == stored.value
    ensures stored.None? || stored.value == 0.0 ==> v == DefaultMasterVolume
  {
    if stored.Some? && stored.value != 0.0 then stored.value else DefaultMasterVolume
  }

  /** Read the settings entry: a missing or unparsable entry leaves the
      settings alone; otherwise each field is taken unless it is falsy. */
  function LoadSettings(m: Manager): (r: Manager)
    ensures r.storage == m.storage && r.sounds.Keys == m.sounds.Keys
    ensures forall t :: t in m.sounds ==> r.sounds[t].playing == m.sounds[t].playing
    ensures SettingsKey !in m.storage || m.storage[SettingsKey].None? ==> r == m
    ensures SettingsKey in m.storage && m.storage[SettingsKey].Some? ==>
      var stored := m.storage[SettingsKey].value;
      && r.isMuted == LoadMuted(stored.isMuted)
      && r.masterVolume == LoadMasterVolume(stored.masterVolume)
      && VolumesFollowSettings(r)
  {
    if SettingsKey !in m.storage then m
    else match m.storage[SettingsKey]
      case None => m
      case Some(stored) =>
        UpdateAllVolumes(m.(isMuted := LoadMuted(stored.isMuted), masterVolume := LoadMasterVolume(stored.masterVolume)))
  }

  /** The clips as created, before settings are loaded: each at its base
      volume times the default master volume, none playing. */
  function InitialSounds(): (sounds: map<SoundType, Sound>)
    ensures sounds.Keys == AllSounds
    ensures forall t :: t in sounds ==> sounds[t].volume == BaseVolume(t) * DefaultMasterVolume
    ensures forall t :: t in sounds ==> !sounds[t].playing
  {
    map t | t in AllSounds :: Sound(BaseVolume(t) * DefaultMasterVolume, false)
  }

  /** The constructor: create the clips, then load the settings. */
  function New(storage: Storage): (m: Manager)
    ensures m.storage == storage && m.sounds.Keys == AllSounds
    ensures forall t :: t in m.sounds ==> !m.sounds[t].playing
    ensures VolumesFollowSettings(m)
    ensures SettingsKey !in storage || storage[SettingsKey].None? ==>
      !m.isMuted && m.masterVolume == DefaultMasterVolume
  {
    LoadSettings(Manager(false, DefaultMasterVolume, InitialSounds(), storage))
  }

  /** The calls `play` makes: other clips are stopped before restarting so
      they do not overlap themselves; background music is not. */
  function PlayCalls(t: SoundType): (calls: seq<HowlCall>)
    ensures HowlPlay in calls && calls[|calls| - 1] == HowlPlay
    ensures HowlStop in calls <==> t != BackgroundMusic
  {
    if t != BackgroundMusic then [HowlStop, HowlPlay] else [HowlPlay]
  }

  /** Apply `calls` to clip `t` if it exists. */
  function OnClip(m: Manager, t: SoundType, calls: seq<HowlCall>): (r: Manager)
    ensures r.(sounds := m.sounds) == m && r.sounds.Keys == m.sounds.Keys
    ensures forall u :: u in m.sounds && u != t ==> r.sounds[u] == m.sounds[u]
    ensures t in m.sounds ==> r.sounds[t] == ApplyAll(m.sounds[t], calls)
  {
    if t in m.sounds then m.(sounds := m.sounds[t := ApplyAll(m.sounds[t], calls)]) else m
  }

  /** Whatever the calls, `play` leaves the clip playing at its volume. */
  lemma PlayCallsEffect(s: Sound, t: SoundType)
    ensures ApplyAll(s, PlayCalls(t)) == s.(playing := true)
  {
    if t != BackgroundMusic {
      assert ApplyAll(s, [HowlStop, HowlPlay]) == ApplyAll(s.(playing := false), [HowlPlay]);
      ApplyOne(s.(playing := false), HowlPlay);
    } else {
      ApplyOne(s, HowlPlay);
    }
  }

  function Play(m: Manager, t: SoundType): (r: Manager)
    ensures m.isMuted ==> r == m
    ensures r.(sounds := m.sounds) == m && r.sounds.Keys == m.sounds.Keys
    ensures forall u :: u in m.sounds && u != t ==> r.sounds[u] == m.sounds[u]
    ensures !m.isMuted && t in m.sounds ==>
      r.sounds[t] == m.sounds[t].(playing := true)
  {
    if m.isMuted then m
    else
      if t in m.sounds then PlayCallsEffect(m.sounds[t], t); OnClip(m, t, PlayCalls(t))
      else OnClip(m, t, PlayCalls(t))
  }

  function Stop(m: Manager, t: SoundType): (r: Manager)
    ensures r.(sounds := m.sounds) == m && r.sounds.Keys == m.sounds.Keys
    ensures forall u :: u in m.sounds && u != t ==> r.sounds[u] == m.sounds[u]
    ensures t in m.sounds ==> r.sounds[t] == m.sounds[t].(playing := false)
  {
    if t in m.sounds then ApplyOne(m.sounds[t], HowlStop); OnClip(m, t, [HowlStop])
    else OnClip(m, t, [HowlStop])
  }

  function Pause(m: Manager, t: SoundType): (r: Manager)
    ensures r.(sounds := m.sounds) == m && r.sounds.Keys == m.sounds.Keys
    ensures forall u :: u in m.sounds && u != t ==> r.sounds[u] == m.sounds[u]
    ensures t in m.sounds ==> r.sounds[t] == m.sounds[t].(playing := false)
  {
    if t in m.sounds then ApplyOne(m.sounds[t], HowlPause); OnClip(m, t, [HowlPause])
    else OnClip(m, t, [HowlPause])
  }

  function Resume(m: Manager, t: SoundType): (r: Manager)
    ensures m.isMuted ==> r == m
    ensures r.(sounds := m.sounds) == m && r.sounds.Keys == m.sounds.Keys
    ensures forall u :: u in m.sounds && u != t ==> r.sounds[u] == m.sounds[u]
    ensures !m.isMuted && t in m.sounds ==> r.sounds[t] == m.sounds[t].(playing := true)
  {
    if t in m.sounds && !m.isMuted then ApplyOne(m.sounds[t], HowlPlay); OnClip(m, t, [HowlPlay]) else m
  }

  /** Set one clip's volume; the settings and storage are not touched. */
  function SetVolume(m: Manager, t: SoundType, v: real): (r: Manager)
    ensures r.(sounds := m.sounds) == m && r.sounds.Keys == m.sounds.Keys
    ensures forall u :: u in m.sounds && u != t ==> r.sounds[u] == m.sounds[u]
    ensures t in m.sounds ==>
      && r.sounds[t].playing == m.sounds[t].playing
      && r.sounds[t].volume == (if m.isMuted then 0.0 else Clamp(v) * m.masterVolume)
  {
    var call := HowlVolume(if m.isMuted then 0.0 else Clamp(v) * m.masterVolume);
    if t in m.sounds then ApplyOne(m.sounds[t], call); OnClip(m, t, [call])
    else OnClip(m, t, [call])
  }

  function SetMasterVolume(m: Manager, v: real): (r: Manager)
    ensures MasterInRange(r) && r.isMuted == m.isMuted
    ensures 0.0 <= v <= 1.0 ==> r.masterVolume == v
    ensures v < 0.0 ==> r.masterVolume == 0.0
    ensures v > 1.0 ==> r.masterVolume == 1.0
    ensures VolumesFollowSettings(r) && Persisted(r)
    ensures r.sounds.Keys == m.sounds.Keys
    ensures forall t :: t in m.sounds ==> r.sounds[t].playing == m.sounds[t].playing
    ensures forall k :: k in m.storage && k != SettingsKey ==> k in r.storage && r.storage[k] == m.storage[k]
  {
    SaveSettings(UpdateAllVolumes(m.(masterVolume := Clamp(v))))
  }

  function Mute(m: Manager): (r: Manager)
    ensures r.isMuted && r.masterVolume == m.masterVolume
    ensures VolumesFollowSettings(r) && Persisted(r)
    ensures forall t :: t in r.sounds ==> r.sounds[t].volume == 0.0
    ensures r.sounds.Keys == m.sounds.Keys
    ensures forall t :: t in m.sounds ==> r.sounds[t].playing == m.sounds[t].playing
    ensures forall k :: k in m.storage && k != SettingsKey ==> k in r.storage && r.storage[k] == m.storage[k]
  {
    SaveSettings(UpdateAllVolumes(m.(isMuted := true)))
  }

  function Unmute(m: Manager): (r: Manager)
    ensures !r.isMuted && r.masterVolume == m.masterVolume
    ensures VolumesFollowSettings(r) && Persisted(r)
    ensures r.sounds.Keys == m.sounds.Keys
    ensures forall t :: t in m.sounds ==> r.sounds[t].playing == m.sounds[t].playing
    ensures forall k :: k in m.storage && k != SettingsKey ==> k in r.storage && r.storage[k] == m.storage[k]
  {
    SaveSettings(UpdateAllVolumes(m.(isMuted := false)))
  }

  /** Dispatch to `unmute` or `mute`: every clip is kept with its playback
      state, and only the settings entry of the storage is rewritten. */
  function ToggleMute(m: Manager): (r: Manager)
    ensures r == (if m.isMuted then Unmute(m) else Mute(m))
    ensures r.isMuted == !m.isMuted && r.masterVolume == m.masterVolume
    ensures VolumesFollowSettings(r) && Persisted(r)
    ensures r.sounds.Keys == m.sounds.Keys
    ensures forall t :: t in m.sounds ==> r.sounds[t].playing == m.sounds[t].playing
    ensures forall k :: k in m.storage && k != SettingsKey ==> k in r.storage && r.storage[k] == m.storage[k]
  {
    if m.isMuted then Unmute(m) else Mute(m)
  }

  /** `playBackgroundMusic` re-checks the mute flag that `play` checks. */
  function PlayBackgroundMusic(m: Manager): (r: Manager)
    ensures r == Play(m, BackgroundMusic)
  {
    if !m.isMuted then Play(m, BackgroundMusic) else m
  }

  // ---------------------------------------------------------------------
  // Properties across calls

  /** Under consistent settings every clip's volume lies in [0, 1]. */
  lemma VolumesInRange(m: Manager)
    requires VolumesFollowSettings(m) && MasterInRange(m)
    ensures forall t :: t in m.sounds ==> 0.0 <= m.sounds[t].volume <= 1.0
  {
    forall t | t in m.sounds
      ensures 0.0 <= m.sounds[t].volume <= 1.0
    {
      var b := BaseVolume(t);
      assert 0.0 <= b * m.masterVolume <= b * 1.0;
    }
  }

  /** Toggling twice restores the settings and the clips; the only trace is
      that the settings are now persisted. */
  lemma ToggleTwice(m: Manager)
    requires VolumesFollowSettings(m)
    ensures ToggleMute(ToggleMute(m)) == SaveSettings(m)
  {
    var r := ToggleMute(ToggleMute(m));
    assert r.sounds == m.sounds;
  }

  /** Saved settings load back unchanged, unless the master volume was 0. */
  lemma SettingsRoundTrip(m: Manager)
    requires m.masterVolume != 0.0
    ensures var n := New(SaveSettings(m).storage);
      n.isMuted == m.isMuted && n.masterVolume == m.masterVolume
  {
  }

  /** A saved master volume of 0 reloads as the default 0.7, because the
      loader treats 0 as missing. */
  lemma ZeroMasterVolumeReloadsAsDefault(m: Manager)
    requires m.masterVolume == 0.0
    ensures New(SaveSettings(m).storage).masterVolume == DefaultMasterVolume
  {
  }

  /** Storage written only by this manager keeps the master volume in
      [0, 1] across a reload. */
  lemma ReloadStaysInRange(m: Manager)
    requires MasterInRange(m)
    ensures MasterInRange(New(SaveSettings(m).storage))
  {
  }

  /** A stored master volume outside [0, 1] is loaded unclamped. */
  lemma LoadDoesNotClamp(storage: Storage, v: real)
    requires v > 1.0
    requires SettingsKey in storage && storage[SettingsKey] == Some(StoredSettings(None, Some(v)))
    ensures New(storage).masterVolume == v && !MasterInRange(New(storage))
  {
  }
}

=== FILE: views.dfy ===
/** The small pure pieces of the screens: the card's click forwarding and
    face visibility, the header's stat tiles, the game screen's counters,
    grid lock and completion modal, and the dashboard's derived values. */
module Views {
  import opened Wrappers
  import opened Deck
  import opened GameLogic
  import opened GameInvariants
  import opened Clock

  // ---------------------------------------------------------------------
  // Card

  /** The card's click handler: it forwards the card's own id, and only
      when the card is enabled, face down and unmatched. */
  function ForwardClick(card: Card, disabled: bool): (r: Option<int>)
    ensures r.Some? <==> !disabled && !card.isFlipped && !card.isMatched
    ensures r.Some? ==> r.value == card.id
  {
    if !disabled && !card.isFlipped && !card.isMatched then Some(card.id) else None
  }

  /** How a card is drawn: which face shows, whether it is dimmed, whether
      it wears the matched ring. */
  datatype CardLook = CardLook(frontVisible: bool, backVisible: bool, dimmed: bool, ringed: bool)

  function Look(card: Card, disabled: bool): (l: CardLook)
    ensures l.frontVisible <==> card.isFlipped || card.isMatched
    ensures l.backVisible <==> !l.frontVisible
    ensures l.dimmed <==> disabled
    ensures l.ringed <==> card.isMatched
  {
    var faceUp := card.isFlipped || card.isMatched;
    CardLook(faceUp, !faceUp, disabled, card.isMatched)
  }

  /** What a card shows and what it accepts agree: on an enabled grid a
      card forwards a tap exactly when it shows its back. */
  lemma TappableIffBackShown(card: Card, disabled: bool)
    ensures ForwardClick(card, disabled).Some? <==> !disabled && Look(card, disabled).backVisible
    ensures Look(card, disabled).frontVisible ==> ForwardClick(card, disabled).None?
  {
  }

  const FallbackIcon: string := "Circle"

  /** Icon lookup by name in the icon library `known`; an unknown name
      draws the circle. */
  function ResolveIcon(name: string, known: set<string>): (r: string)
    ensures name in known ==> r == name
    ensures name !in known ==> r == FallbackIcon
  {
    if name in known then name else FallbackIcon
  }

  /** Under the invariants the view's guard and the reducer's guard agree:
      a tap on the card at position `i` of an enabled grid is forwarded as
      click `i`, and the reducer acts on it unless two cards are already
      selected. */
  lemma ForwardedClickIsAccepted(s: GameState, i: int)
    requires Inv(s) && 0 <= i < |s.cards|
    ensures var r := ForwardClick(s.cards[i], GridDisabled(s));
      && (r.Some? ==> r.value == i)
      && (r.Some? && |s.flippedCards| < 2 <==> Accepts(s, i))
  {
  }

  // ---------------------------------------------------------------------
  // Game header

  /** A header tile; the score's locale formatting is not modelled, so the
      score tile carries the number. */
  datatype Stat = LevelStat(level: int) | ScoreStat(score: int) | MovesStat(moves: nat) | TimeStat(clock: string)

  function Label(st: Stat): string {
    match st
    case LevelStat(_) => "Level"
    case ScoreStat(_) => "Score"
    case MovesStat(_) => "Moves"
    case TimeStat(_) => "Time"
  }

  /** The header tiles in display order. */
  function HeaderStats(s: GameState): (tiles: seq<Stat>)
    ensures |tiles| == 4
    ensures [Label(tiles[0]), Label(tiles[1]), Label(tiles[2]), Label(tiles[3])] == ["Level", "Score", "Moves", "Time"]
    ensures tiles[3].TimeStat? && ParseClock(tiles[3].clock) == Some(s.timeElapsed)
    ensures tiles[0] == LevelStat(s.currentLevel) && tiles[1] == ScoreStat(s.score) && tiles[2] == MovesStat(s.moves)
  {
    [LevelStat(s.currentLevel), ScoreStat(s.score), MovesStat(s.moves), TimeStat(PaddedClock(s.timeElapsed))]
  }

  // ---------------------------------------------------------------------
  // Game screen

  function TotalPairs(s: GameState): nat {
    |s.cards| / 2
  }

  function MatchedCount(s: GameState): nat {
    |s.matchedPairs|
  }

  /** The card grid is locked in every status but `playing`. */
  function GridDisabled(s: GameState): (locked: bool)
    ensures !locked <==> s.status == Playing
  {
    s.status != Playing
  }

  /** The `matched/total` counter never overshoots, and it is full exactly
      when every card is matched. */
  lemma PairCounter(s: GameState)
    requires Inv(s)
    ensures MatchedCount(s) <= TotalPairs(s)
    ensures MatchedCount(s) == TotalPairs(s) <==> AllMatched(s.cards)
  {
    FullIffAllMatched(s.cards, s.matchedPairs);
  }

  datatype ModalButton = NextLevel | PlayAgain | Home

  /** The completion modal's buttons: NEXT LEVEL only when a handler for it
      is supplied, then PLAY AGAIN and HOME. */
  function CompletionButtons(hasNextLevel: bool): (buttons: seq<ModalButton>)
    ensures NextLevel in buttons <==> hasNextLevel
    ensures |buttons| == (if hasNextLevel then 3 else 2)
    ensures hasNextLevel ==> buttons[0] == NextLevel
    ensures buttons[|buttons| - 2..] == [PlayAgain, Home]
  {
    (if hasNextLevel then [NextLevel] else []) + [PlayAgain, Home]
  }

  // ---------------------------------------------------------------------
  // Player dashboard

  datatype Tile = HighestLevelTile(level: int) | BestScoreTile(score: int) | GamesPlayedTile(games: nat) | AverageTimeTile(text: string)

  /** The dashboard tiles in display order. */
  function DashboardTiles(p: PlayerProgress): (tiles: seq<Tile>)
    ensures |tiles| == 4
    ensures tiles[0] == HighestLevelTile(p.highestLevel)
    ensures tiles[1] == BestScoreTile(p.bestScore)
    ensures tiles[2] == GamesPlayedTile(p.totalGamesPlayed)
    ensures tiles[3].AverageTimeTile?
    ensures ParseDashboardTime(tiles[3].text) == Some((p.averageTime / 60, p.averageTime % 60))
  {
    var average := DashboardTime(p.averageTime);
    assert ParseDashboardTime(average) == Some((p.averageTime / 60, p.averageTime % 60));
    [HighestLevelTile(p.highestLevel), BestScoreTile(p.bestScore), GamesPlayedTile(p.totalGamesPlayed),
     AverageTimeTile(average)]
  }
}

=== FILE: wrappers.dfy ===
/** Optional values and results with an error case, shared by the game and
    audio models. */
module Wrappers {

  /** A value that may be absent: a missing storage key, a JSON field that
      is `undefined`, an optional callback. */
  datatype Option<+T> = None | Some(value: T)

  /** The ways a reducer can throw in the original code. */
  datatype Fault =
    /** `cards[id]` read past the end of the deck yields `undefined`, and
        reading a field of it throws a `TypeError`. */
    | CardUndefined(index: int)

  /** Either the next value, or the exception the source would raise. */
  datatype Result<+T> = Ok(value: T) | Err(fault: Fault)
}
